=== FILE: README.md ===
# Construction procurement back end — Dafny model

This project models the service layer of a Spring Boot procurement system for construction sites.
Site managers place orders for their site. Procurement managers approve or cancel them. Suppliers
are assigned to orders and deliver them. An administrator registers accounts and sets up sites.

The whole database is one immutable `Store` (`entities.dfy`). It holds one map per table
(users, sites, orders, order items, catalogue items, session tokens) and the next id each
identity column will hand out. Every service method is a pure function from a store and its
arguments to either a new store (or a view) or one of the five error kinds the services throw:
NotFound, BadRequest, Conflict, Forbidden, InternalServer.

The relational mapping keeps some relations on both sides: an order's items, a site's users, a
supplier's orders, a user's session row. The model stores only the owning side. The other side
is a query over the owning side (`Tables.Select`), so the two can never disagree. The repository
promises no order for these queries; the model lists their results by ascending id.

Modules, one per file:

- `Wrappers` (`wrappers.dfy`): `Option`, `Result` and the error kinds.
- `Tables` (`tables.dfy`): ordered queries over keyed tables and their algebra.
- `Permissions` (`permission.dfy`): the sixteen permission constants and their `scope:action` strings.
- `Roles` (`user_role.dfy`): the four roles, their permission sets and `getAuthorities`.
- `Entities` (`entities.dfy`): the records, the store, its well-formedness, and the repository finders.
- `OrderService` (`order_service.dfy`): order listing and visibility, placing orders, editing lines,
  status changes, and supplier assignment.
- `SiteService` (`site_service.dfy`): manager checks, adding and updating sites, allocation, and the
  invariant that slots and users' site references agree.
- `UserService` (`user_service.dfy`): registration, activation, password reset, login, refresh,
  logout, and the one-row-per-user session upsert.
- `ItemService` (`item_service.dfy`): the item catalogue.

The user the request was authenticated as is passed in as `caller`. Logout takes the caller's
token as a parameter. Foreign calls are parameters too:

- BCrypt's `encode` is `hash`, and `matches` is `matches`.
- JWT's subject extraction is `subject`, and its validity test is `isTokenValid`.
- Freshly generated tokens are `accessToken` and `refreshToken`.

## Model

| member | source | states |
|---|---|---|
| Permissions.PermissionOf | src/main/java/com/procurement/system/construction/industry/enums/Permission.java:9-27 | every (scope, action) pair has a declared constant with exactly that scope and action |
| Permissions.DeclarationShape | src/main/java/com/procurement/system/construction/industry/enums/Permission.java:9-27 | each authority string is scope word, `:`, action word; each constant's name is the upper-cased scope word, `_`, the upper-cased action word |
| Permissions.PairsDeclaredOnce | src/main/java/com/procurement/system/construction/industry/enums/Permission.java:9-27 | the sixteen constants and the sixteen (scope, action) pairs are in bijection |
| Permissions.PermissionStringInjective | src/main/java/com/procurement/system/construction/industry/enums/Permission.java:9-30 | `getPermission` is injective: equal authority strings come from the same constant |
| Roles.RoleNameShape | src/main/java/com/procurement/system/construction/industry/enums/UserRole.java:14-61 | a role's name is its scope word upper-cased, and equal names mean equal roles |
| Roles.NonAdminHoldsOwnScope | src/main/java/com/procurement/system/construction/industry/enums/UserRole.java:14-38 | each non-admin role holds exactly the four permissions of its own scope and no admin permission |
| Roles.AdminIsUnion | src/main/java/com/procurement/system/construction/industry/enums/UserRole.java:39-61 | the admin set is the union of the three other roles' sets and the four admin permissions |
| Roles.AdminHoldsEverything | src/main/java/com/procurement/system/construction/industry/enums/UserRole.java:39-61 | the admin set holds all sixteen permissions and includes every role's set |
| Roles.NonAdminDisjoint | src/main/java/com/procurement/system/construction/industry/enums/UserRole.java:14-38 | distinct non-admin roles share no permission |
| Roles.AuthorityStringsCount | src/main/java/com/procurement/system/construction/industry/enums/UserRole.java:66-69 | mapping a permission set to authority strings loses no element |
| Roles.RoleAuthorityIsNotAPermission | src/main/java/com/procurement/system/construction/industry/enums/UserRole.java:71 | `ROLE_` plus a role name never equals a permission string |
| Roles.Authorities | src/main/java/com/procurement/system/construction/industry/enums/UserRole.java:66-73 | the authorities contain `ROLE_<name>` and exactly the role's permission strings, and number one more than the permissions |
| OrderService.ItemViews | src/main/java/com/procurement/system/construction/industry/service/OrderServiceImpl.java:93-104 | one view per line of the order, in id order, carrying each line's id, quantity, status and item |
| OrderService.OrderView | src/main/java/com/procurement/system/construction/industry/service/OrderServiceImpl.java:59-91 | a procurement manager sees the lines iff the status is Pending, Approved or Cancelled; a supplier iff Approved or Returned; every other role always; visible lines are exactly the order's lines in id order, each with its quantity, status and item |
| OrderService.GetAllOrderDetails | src/main/java/com/procurement/system/construction/industry/service/OrderServiceImpl.java:42-57 | NotFound for a caller without a site and, in a well-formed store, iff the site has no order; otherwise only the site's orders, ascending, each as `OrderView` for the caller's role |
| OrderService.GetAllOrderDetailsComplete | src/main/java/com/procurement/system/construction/industry/service/OrderServiceImpl.java:42-57 | every order of the caller's site is listed |
| OrderService.Resolvable | src/main/java/com/procurement/system/construction/industry/service/OrderServiceImpl.java:122-134 | the kept request lines are no more than the sent ones, and each carries an item id that names a catalogue item |
| OrderService.ResolvableCounts | src/main/java/com/procurement/system/construction/industry/service/OrderServiceImpl.java:122-134 | each request line whose item resolves is kept exactly as often as it was sent, every other line is dropped |
| OrderService.ResolvableExtremes | src/main/java/com/procurement/system/construction/industry/service/OrderServiceImpl.java:122-134 | when every item resolves all lines are kept in order; when none resolves no line is kept |
| OrderService.AddLinesContents | src/main/java/com/procurement/system/construction/industry/service/OrderServiceImpl.java:122-134 | the k-th new line is a Pending line for the k-th resolvable request line |
| OrderService.AddLinesCount | src/main/java/com/procurement/system/construction/industry/service/OrderServiceImpl.java:122-134 | the order gains one line per resolvable request line and no other order gains any |
| OrderService.AddOrder | src/main/java/com/procurement/system/construction/industry/service/OrderServiceImpl.java:107-137 | NotFound when the caller has no site; otherwise a server error, storing nothing, when some line has no item id (the lookup throws inside the transaction); otherwise one new Pending order for the caller's site with no supplier, one line per resolvable request line, and the user, site, item and token tables unchanged |
| OrderService.AddOrderPlaces | src/main/java/com/procurement/system/construction/industry/service/OrderServiceImpl.java:107-137 | placing a request whose lines all carry an item id keeps the store well formed, gives the new order one line per resolvable request line, and leaves other orders' lines alone |
| OrderService.AddOrderLinesPending | src/main/java/com/procurement/system/construction/industry/service/OrderServiceImpl.java:122-134 | for a request whose lines all carry an item id, every line of the new order is Pending and names a catalogue item |
| OrderService.AddOrderListed | src/main/java/com/procurement/system/construction/industry/service/OrderServiceImpl.java:107-137 | for a request whose lines all carry an item id, the new order is appended to its site's order list |
| OrderService.AddOrderItem | src/main/java/com/procurement/system/construction/industry/service/OrderServiceImpl.java:141-158 | a missing order id is a server error; then NotFound for a missing order; then a missing item id is a server error; then NotFound for a missing item; succeeds iff the order exists and the item id names a stored item, and then exactly one new Pending line for that order and item is stored under the next id, every other table unchanged |
| OrderService.AddOrderItemAppends | src/main/java/com/procurement/system/construction/industry/service/OrderServiceImpl.java:141-158 | the order's line list grows by the new id and every other order's list is unchanged |
| OrderService.RemoveOrderItem | src/main/java/com/procurement/system/construction/industry/service/OrderServiceImpl.java:162-178 | NotFound for a missing line; BadRequest iff it is its order's only line; every error is one of these two, so in a well-formed store it succeeds iff the line and its order exist and the order has another line, and then exactly that line is removed |
| OrderService.RemoveOrderItemKeepsOne | src/main/java/com/procurement/system/construction/industry/service/OrderServiceImpl.java:162-178 | a removal shortens the order's line list by one and never empties it |
| OrderService.AddThenRemoveOrderItem | src/main/java/com/procurement/system/construction/industry/service/OrderServiceImpl.java:141-178 | removing the line just added to a non-empty order gives the store back, with the id spent |
| OrderService.SetOrderStatus | src/main/java/com/procurement/system/construction/industry/service/OrderServiceImpl.java:182-200 | NotFound iff the order is missing; otherwise the order and exactly its lines take the status, whatever they had |
| OrderService.SetOrderStatusKeepsLines | src/main/java/com/procurement/system/construction/industry/service/OrderServiceImpl.java:182-200 | a bulk status change keeps every order's line list |
| OrderService.SetOrderStatusReaches | src/main/java/com/procurement/system/construction/industry/service/OrderServiceImpl.java:182-200 | afterwards the order and all its lines carry the target status |
| OrderService.SetOrderStatusIdempotent | src/main/java/com/procurement/system/construction/industry/service/OrderServiceImpl.java:182-200 | setting the same status twice is setting it once |
| OrderService.SetAsApproved | src/main/java/com/procurement/system/construction/industry/service/OrderServiceImpl.java:278-298 | NotFound iff the order is missing; otherwise the order is Approved |
| OrderService.SetAsCanceled | src/main/java/com/procurement/system/construction/industry/service/OrderServiceImpl.java:300-320 | NotFound iff the order is missing; otherwise the order is Cancelled |
| OrderService.SetAsDelivered | src/main/java/com/procurement/system/construction/industry/service/OrderServiceImpl.java:322-340 | NotFound iff the order is missing; otherwise the order is Delivered |
| OrderService.SetAsComplete | src/main/java/com/procurement/system/construction/industry/service/OrderServiceImpl.java:182-200 | NotFound iff the order is missing; otherwise the order is Completed |
| OrderService.PlaceThenApprove | src/main/java/com/procurement/system/construction/industry/service/OrderServiceImpl.java:107-137 | a freshly placed order whose lines all carry an item id can be approved, and then it and all its lines are Approved |
| OrderService.SetItemStatus | src/main/java/com/procurement/system/construction/industry/service/OrderServiceImpl.java:203-220 | NotFound iff the line is missing; otherwise only that line's status changes |
| OrderService.SetItemStatusKeepsLines | src/main/java/com/procurement/system/construction/industry/service/OrderServiceImpl.java:203-220 | a single-line status change keeps every order's line list |
| OrderService.SetAsCompleteItem | src/main/java/com/procurement/system/construction/industry/service/OrderServiceImpl.java:203-210 | NotFound iff the line is missing; otherwise the line is Completed |
| OrderService.SetAsReturnItem | src/main/java/com/procurement/system/construction/industry/service/OrderServiceImpl.java:213-220 | NotFound iff the line is missing; otherwise the line is Returned |
| OrderService.SetAsDeliveredItem | src/main/java/com/procurement/system/construction/industry/service/OrderServiceImpl.java:343-350 | NotFound iff the line is missing; otherwise the line is Delivered |
| OrderService.SetAsCancelledItem | src/main/java/com/procurement/system/construction/industry/service/OrderServiceImpl.java:353-360 | NotFound iff the line is missing; otherwise the line is Cancelled |
| OrderService.GetSuppliers | src/main/java/com/procurement/system/construction/industry/service/OrderServiceImpl.java:223-240 | NotFound without a site and, in a well-formed store, iff the site has no active supplier; otherwise only active suppliers of the caller's site, in ascending id order |
| OrderService.GetSuppliersComplete | src/main/java/com/procurement/system/construction/industry/service/OrderServiceImpl.java:223-240 | every active supplier allocated to the caller's site is listed |
| OrderService.AssignSupplierAsWritten | src/main/java/com/procurement/system/construction/industry/service/OrderServiceImpl.java:244-274 | NotFound for a caller without a site, then a missing order, then a missing supplier; otherwise BadRequest unless the order belongs to the caller's site and the user has the Supplier role; success iff all of those hold, setting the order's supplier |
| OrderService.AssignSupplierAcceptsForeignSupplier | src/main/java/com/procurement/system/construction/industry/service/OrderServiceImpl.java:256-264 | a supplier allocated to no site is accepted for an order |
| OrderService.AssignSupplier | src/main/java/com/procurement/system/construction/industry/service/OrderServiceImpl.java:244-274 | NotFound for no site, missing order, missing user, in that order; BadRequest otherwise unless the order's site is the caller's, the user is a supplier and the supplier is allocated to the order's site |
| OrderService.AssignSupplierEffect | src/main/java/com/procurement/system/construction/industry/service/OrderServiceImpl.java:266-271 | the order appears in the supplier's order list and in no other user's list |
| SiteService.SiteManagerCheck | src/main/java/com/procurement/system/construction/industry/service/SiteServiceImpl.java:52-70 | BadRequest for no id, NotFound for an unknown user, BadRequest for a wrong role, Conflict if already managing a site, in that order; accepted iff none applies |
| SiteService.ProcurementManagerCheck | src/main/java/com/procurement/system/construction/industry/service/SiteServiceImpl.java:72-86 | the same checks for a procurement manager, without the null check |
| SiteService.OptionalProcurementManager | src/main/java/com/procurement/system/construction/industry/service/SiteServiceImpl.java:88-99 | an absent procurement manager passes; a given one passes iff its check does |
| SiteService.UpdateUserRef | src/main/java/com/procurement/system/construction/industry/service/SiteServiceImpl.java:101-114 | stores the site and allocates its site manager, and its procurement manager if any, to it; a dangling procurement manager is a server error |
| SiteService.AddSite | src/main/java/com/procurement/system/construction/industry/service/SiteServiceImpl.java:39-50 | fails with the site-manager check's error, then the procurement-manager check's; otherwise a new site with the form's fields whose managers are allocated to it |
| SiteService.AddSiteAttaches | src/main/java/com/procurement/system/construction/industry/service/SiteServiceImpl.java:39-50 | a successful add is the attach of the new site after both checks passed |
| SiteService.AddSiteKeepsConsistent | src/main/java/com/procurement/system/construction/industry/service/SiteServiceImpl.java:39-114 | adding keeps slot roles, manager allocation and one site per manager |
| SiteService.Detach | src/main/java/com/procurement/system/construction/industry/service/SiteServiceImpl.java:175-192 | clears the site's manager slots and the old managers' site references, and nothing else |
| SiteService.DetachKeepsConsistent | src/main/java/com/procurement/system/construction/industry/service/SiteServiceImpl.java:175-192 | detaching a site of a consistent store succeeds and keeps it consistent |
| SiteService.MergeFields | src/main/java/com/procurement/system/construction/industry/service/SiteServiceImpl.java:199-210 | each given field replaces the stored one; absent fields keep the stored value |
| SiteService.UpdateSite | src/main/java/com/procurement/system/construction/industry/service/SiteServiceImpl.java:159-224 | missing site NotFound, no manager BadRequest, unknown manager NotFound, wrong role BadRequest, all before any write; then a dangling slot is a server error; then the site-manager and procurement-manager checks run against the store with this site's managers detached and their errors are returned; success iff all pass; on success the site carries the merged fields and the new managers, who are allocated to it, the former managers not named again are deallocated, and every other user and site is unchanged |
| SiteService.Reattach | src/main/java/com/procurement/system/construction/industry/service/SiteServiceImpl.java:194-222 | on the detached store: the site-manager check, then the procurement-manager check, each error returned as is; success iff both pass, storing the merged row and allocating both new managers |
| SiteService.UpdateSiteTouchesOnlyAllocations | src/main/java/com/procurement/system/construction/industry/service/SiteServiceImpl.java:159-224 | an update changes no user's record other than the site they are allocated to |
| SiteService.UpdateSiteReleasesOldManagers | src/main/java/com/procurement/system/construction/industry/service/SiteServiceImpl.java:175-192 | the site's former managers, unless named again, end with no site; every other user is unchanged |
| SiteService.ReassignCurrentManager | src/main/java/com/procurement/system/construction/industry/service/SiteServiceImpl.java:175-196 | re-submitting a site with its own manager succeeds, because the detach frees that manager |
| SiteService.UpdateSiteRejectsOtherManager | src/main/java/com/procurement/system/construction/industry/service/SiteServiceImpl.java:194-197 | naming the manager of another site fails with Conflict |
| SiteService.UpdateSiteKeepsConsistent | src/main/java/com/procurement/system/construction/industry/service/SiteServiceImpl.java:159-224 | an update keeps slot roles, manager allocation and one site per manager |
| SiteService.AttachKeepsConsistent | src/main/java/com/procurement/system/construction/industry/service/SiteServiceImpl.java:101-114 | attaching managers that passed their checks keeps the store consistent |
| SiteService.DeleteSite | src/main/java/com/procurement/system/construction/industry/service/SiteServiceImpl.java:227-240 | NotFound iff the site is missing; otherwise exactly that site is removed |
| SiteService.DeleteSiteKeepsConsistent | src/main/java/com/procurement/system/construction/industry/service/SiteServiceImpl.java:227-240 | deleting a site of a consistent store succeeds and keeps the store consistent; in the model, which keeps the site's users, its former managers then pass the candidate checks for another site |
| SiteService.AllocateSite | src/main/java/com/procurement/system/construction/industry/service/SiteServiceImpl.java:244-264 | NotFound for a missing site, then an unknown email; BadRequest if the user already has a site; for an existing site and user it succeeds iff the user has no site, no other error arises, and on success only that user's site is set |
| SiteService.AllocateSiteEffect | src/main/java/com/procurement/system/construction/industry/service/SiteServiceImpl.java:244-264 | the user joins the site's user list, was not in it before, and the store stays consistent |
| SiteService.DeAllocateSiteAsWritten | src/main/java/com/procurement/system/construction/industry/service/SiteServiceImpl.java:267-286 | NotFound for a missing site, then an unknown email; otherwise success iff the user has some site and is not this site's manager, BadRequest otherwise; success clears that user's site |
| SiteService.DeAllocateSiteDetachesForeignManager | src/main/java/com/procurement/system/construction/industry/service/SiteServiceImpl.java:274-280 | deallocating the manager of site 0 through site 1 succeeds and leaves site 0's manager unallocated |
| SiteService.DeAllocateSite | src/main/java/com/procurement/system/construction/industry/service/SiteServiceImpl.java:267-286 | NotFound for a missing site or email; otherwise success iff the user is allocated to this site and is not its manager, BadRequest else; only that user's site is cleared |
| SiteService.DeAllocateSiteKeepsManagers | src/main/java/com/procurement/system/construction/industry/service/SiteServiceImpl.java:267-286 | deallocation keeps slot roles, unique and allocated site managers, and removes exactly that user from the site's user list |
| UserService.AddUser | src/main/java/com/procurement/system/construction/industry/service/UserServiceImpl.java:40-63 | Conflict iff the email is registered, with no change; otherwise one new account with the encoded password, inactive unless stated |
| UserService.AddUserRegisters | src/main/java/com/procurement/system/construction/industry/service/UserServiceImpl.java:40-63 | registration keeps emails unique and the email then finds the new account |
| UserService.AddUserTwiceConflicts | src/main/java/com/procurement/system/construction/industry/service/UserServiceImpl.java:42-47 | registering the same email again is refused |
| UserService.Activate | src/main/java/com/procurement/system/construction/industry/service/UserServiceImpl.java:76-90 | NotFound for an unknown id, Conflict if already active; otherwise only that account becomes active |
| UserService.Deactivate | src/main/java/com/procurement/system/construction/industry/service/UserServiceImpl.java:92-106 | NotFound for an unknown id, Conflict if already inactive; otherwise only that account becomes inactive |
| UserService.ActivateDeactivateInverse | src/main/java/com/procurement/system/construction/industry/service/UserServiceImpl.java:76-106 | activation and deactivation undo each other, and neither succeeds twice in a row |
| UserService.ResetPassword | src/main/java/com/procurement/system/construction/industry/service/UserServiceImpl.java:108-124 | NotFound iff no account has the email; otherwise only that account's password changes, to the encoding of the new one |
| UserService.ResetPasswordKeepsAccounts | src/main/java/com/procurement/system/construction/industry/service/UserServiceImpl.java:108-124 | a reset leaves every email lookup, email uniqueness and well-formedness as they were |
| UserService.SaveToken | src/main/java/com/procurement/system/construction/industry/service/UserServiceImpl.java:224-242 | reuses the user's session row or adds one under a fresh id, and leaves other users' rows alone |
| UserService.SaveTokenSingleRow | src/main/java/com/procurement/system/construction/industry/service/UserServiceImpl.java:224-242 | afterwards the user has exactly one session row, holding the new token live, and every user still has at most one row |
| UserService.SaveTokenLastWins | src/main/java/com/procurement/system/construction/industry/service/UserServiceImpl.java:224-242 | saving two tokens in a row is the same as saving the last one |
| UserService.Authenticate | src/main/java/com/procurement/system/construction/industry/service/UserServiceImpl.java:126-163 | NotFound for an unknown email, then Forbidden for an inactive account before the password, then NotFound for a wrong password; otherwise the access token is saved as the session |
| UserService.RefreshToken | src/main/java/com/procurement/system/construction/industry/service/UserServiceImpl.java:165-205 | BadRequest for an empty subject, BadRequest for an inactive account, NotFound for an unknown one, a server error for an invalid token; otherwise the new access token is saved and the same refresh token returned |
| UserService.LoginOpensSession | src/main/java/com/procurement/system/construction/industry/service/UserServiceImpl.java:150-151 | after a login or refresh the account has exactly one live session row holding the new access token |
| UserService.LoginThenLogout | src/main/java/com/procurement/system/construction/industry/service/UserServiceImpl.java:126-222 | the access token a login returns can be used to log out |
| UserService.Logout | src/main/java/com/procurement/system/construction/industry/service/UserServiceImpl.java:207-222 | NotFound for an empty token; BadRequest iff no row holds it; otherwise that row becomes expired and revoked and nothing else changes |
| UserService.LogoutIdempotent | src/main/java/com/procurement/system/construction/industry/service/UserServiceImpl.java:207-222 | a second logout with the same token changes nothing more, and one row per user is kept |
| ItemService.AddItem | src/main/java/com/procurement/system/construction/industry/service/ItemServiceImpl.java:27-40 | fails with no change iff an item has that name: a server error iff two listed items share it (the name lookup returns at most one row), Conflict otherwise; on success exactly one new item under a fresh id, whatever id the form carries |
| ItemService.AddItemKeepsNamesUnique | src/main/java/com/procurement/system/construction/industry/service/ItemServiceImpl.java:27-40 | listing keeps names unique and the name then finds the new item, so listing it again is refused |
| ItemService.GetAllItems | src/main/java/com/procurement/system/construction/industry/service/ItemServiceImpl.java:42-54 | NotFound on failure; every entry is a stored item under its own id, in ascending id order |
| ItemService.GetAllItemsComplete | src/main/java/com/procurement/system/construction/industry/service/ItemServiceImpl.java:42-54 | fails iff the catalogue is empty; otherwise one entry per item, including every item with its id |
| ItemService.GetItem | src/main/java/com/procurement/system/construction/industry/service/ItemServiceImpl.java:56-66 | NotFound iff the id is absent; otherwise exactly the item stored under that id |
| ItemService.UpdateItem | src/main/java/com/procurement/system/construction/industry/service/ItemServiceImpl.java:68-80 | a missing id is a server error, an unknown id NotFound; otherwise only that item changes and reading it back gives the form's fields |
| ItemService.UpdateItemCanDuplicateName | src/main/java/com/procurement/system/construction/industry/service/ItemServiceImpl.java:68-80 | an update can give an item another item's name, breaking uniqueness; listing an item under that name then fails with a server error instead of Conflict |
| ItemService.DeleteItem | src/main/java/com/procurement/system/construction/industry/service/ItemServiceImpl.java:82-91 | NotFound iff the id is absent; otherwise exactly that item is removed |
| ItemService.AddThenDeleteItem | src/main/java/com/procurement/system/construction/industry/service/ItemServiceImpl.java:27-91 | deleting a just-listed item gives the catalogue back, and the item can no longer be read |
## Left out

- Controllers, the security filter chain, its URL-matcher rules, CORS configuration and the bootstrap administrator endpoint: HTTP routing and framework configuration, not service logic.
- The static current-token field of `CommonFunctions` and its user lookup: process-global state; the caller and the logout token are explicit parameters instead.
- JWT generation, parsing and validation, and BCrypt hashing: foreign calls, modelled as the parameters listed above.
- The `authenticationManager.authenticate` call in login: once the account is found active and the password matches, it is taken to succeed, because the user record reports every account as enabled and unlocked.
- ModelMapper DTO mapping, DTO classes and paginated listings (`getAllUsers`, `allSiteInfo`, `siteInfo`, `getSiteInfo`): presentation only; the listings do no checking beyond an emptiness test.
- Floating-point fields (`price`, `weight`, `allocatedBudget`) and the budget update in `updateSite`: floating point.
- JPA cascades and orphan removal (for example, what `deleteSite` and `deleteItem` drag along): the mapping's cascade behaviour is framework semantics; the model deletes exactly the named row. In the program, `Site.users` cascades with orphan removal (src/main/java/com/procurement/system/construction/industry/entity/Site.java:37-38), so deleting a site also deletes every user allocated to it, its managers included, and the site's orders (lines 40-41).
- SiteService.DeleteSiteKeepsConsistent: its clauses about the former managers passing the candidate checks hold of the model, which keeps the site's users; in the program those users are deleted with the site, so a later check on them gives NotFound.
- Listing order: no query of the source carries an ORDER BY or an ordering annotation, so the order of `getAllOrderDetails`, an order's lines, `getSuppliers` and `getAllItems` is unspecified; the model lists by ascending id, which is one of the orders the program may produce.
- `ItemRepository`, `AuthTokenRepository` and the exception classes are not part of this model; their finders are read from their names (`findByName`, `findByToken`, `findByUserUserId`).
- `OrderRepository` is declared over `Order`; the model uses `OrderDetails`, the entity the service works with.
- The unit tests that expect an "item in use" Conflict on delete, or success when removing an order's only item: they contradict the service code, which the model follows.
- A refresh token the JWT library cannot parse raises an unhandled library exception before any check; `UserService.RefreshToken` takes the subject as already extracted.
- A logout before any token was stored dereferences a null static field; `UserService.Logout` starts from the caller's token string.
- Null-pointer paths are preconditions rather than modelled behaviour: `SiteService.DeAllocateSite` and `SiteService.DeAllocateSiteAsWritten` require the site to have a site manager; `SiteService.AddSite` requires the name, location and contact number that request validation enforces. `OrderService.AddOrder` takes the request's lines as a sequence, so a request without an `items` list is not modelled: that field carries no validation annotation, and the loop over it throws a null-pointer exception after the order is saved, which rolls the order back and surfaces as an internal server error.
- A null id passed to `findById` raises an unhandled framework exception; it is modelled as InternalServer (the order id and item id of `AddOrderItem`, the item ids of `AddOrder`'s lines, the site id of `UpdateSite`, the item id of `UpdateItem`). In `AddOrder` the exception rolls back the whole order.
- SiteService.UpdateSite: the detach of the old managers is written before the candidate checks. The Conflict these checks raise rolls that write back: the implementation declares `ConflictException` but the interface it overrides (src/main/java/com/procurement/system/construction/industry/service/SiteService.java:20) does not, so the exception is unchecked. Whether the NotFound and BadRequest of the procurement-manager check (SiteServiceImpl.java:218) and the InternalServer of the detach also roll it back depends on exception classes that are not part of this model; every failing update is modelled as leaving the store unchanged.
- `OrderItem.quantity`: the entity declares no quantity column, yet the line view reads one and the request carries one; the model keeps it as an integer field copied from the request.
- Status is modelled as the six values the services use; the `Status` enum file is not part of this model.
- `User.orders`, `Site.users`, `OrderDetails.items` and `User.authToken` are derived queries rather than stored lists, so the code that appends to them has no separate effect in the model.
- ItemService.UpdateItem: every mapped field, absent optional ones included, is copied from the form; the mapper's configuration is not part of this model.

## Findings

| source | as written | input that shows it | evidently intended | confidence | as-written member | corrected member |
|---|---|---|---|---|---|---|
| src/main/java/com/procurement/system/construction/industry/service/OrderServiceImpl.java:256-264 | the third check repeats the first (order's site against the caller's site), so the supplier's own site is never compared | a supplier allocated to no site, assigned to an order of the caller's site, is accepted | the supplier must be allocated to the order's site ("invalid supplier assignment for this order") | not executed | OrderService.AssignSupplierAsWritten, OrderService.AssignSupplierAcceptsForeignSupplier | OrderService.AssignSupplier, OrderService.AssignSupplierEffect |
| src/main/java/com/procurement/system/construction/industry/service/SiteServiceImpl.java:274-280 | deallocation checks only that the user has some site and is not this site's manager | the manager of site 0 deallocated through site 1 loses their site, leaving site 0 with an unallocated manager | the user must be allocated to the given site | not executed | SiteService.DeAllocateSiteAsWritten, SiteService.DeAllocateSiteDetachesForeignManager | SiteService.DeAllocateSite, SiteService.DeAllocateSiteKeepsManagers |

=== FILE: entities.dfy ===
/** The persistent records of the system and the store that holds them.

    Each table maps generated ids to records; a record does not repeat its own id. A reference
    that the relational mapping derives from the other side of a relation (a site's orders, an
    order's items, a user's session row, the site a user manages) is not stored: it is the query
    over the owning side that the repository would run. */
module Entities {
  import opened Wrappers
  import opened Tables
  import opened Roles

  type Id = nat

  /** A calendar date; the model compares dates for equality only. */
  type Date = int

  /** The status shared by orders and order items. */
  datatype Status = Pending | Approved | Cancelled | Delivered | Completed | Returned

  /** A registered account. `password` holds the encoded password; `site` is the site the user is
      allocated to. The orders a supplier is assigned are derived (`OrdersOfSupplier`). */
  datatype User = User(
    firstName: string,
    lastName: string,
    email: string,
    mobileNumber: string,
    password: string,
    role: Role,
    isActive: bool,
    site: Option<Id>)

  /** A construction site with its two manager slots. Its allocated users are derived (`UsersOfSite`). */
  datatype Site = Site(
    siteName: string,
    location: string,
    startDate: Option<Date>,
    contactNumber: string,
    siteManager: Option<Id>,
    procurementManager: Option<Id>)

  /** An order placed for a site; its items are the order items that reference it. */
  datatype OrderDetails = OrderDetails(
    status: Status,
    requiredDate: Date,
    site: Id,
    supplier: Option<Id>)

  /** One line of an order: a quantity of one catalogue item, with its own status. */
  datatype OrderItem = OrderItem(
    quantity: int,
    status: Status,
    item: Id,
    order: Id)

  /** A catalogue entry. */
  datatype Item = Item(
    name: string,
    description: Option<string>,
    manufacturer: string,
    quantityAvailable: int,
    volumeType: string,
    color: Option<string>)

  /** A session row: the last access token issued to `user` and whether it was revoked. */
  datatype AuthToken = AuthToken(
    token: string,
    expired: bool,
    revoked: bool,
    user: Id)

  /** All tables, with the next id each identity column will hand out. */
  datatype Store = Store(
    users: map<Id, User>,
    sites: map<Id, Site>,
    orders: map<Id, OrderDetails>,
    orderItems: map<Id, OrderItem>,
    items: map<Id, Item>,
    tokens: map<Id, AuthToken>,
    nextUser: Id,
    nextSite: Id,
    nextOrder: Id,
    nextOrderItem: Id,
    nextItem: Id,
    nextToken: Id)

  /** Identity columns only hand out ids above every id already used, and every order item
      belongs to a stored order (order items are only ever created for a stored order). */
  predicate Wf(s: Store) {
    && (forall k :: k in s.users ==> k < s.nextUser)
    && (forall k :: k in s.sites ==> k < s.nextSite)
    && (forall k :: k in s.orders ==> k < s.nextOrder)
    && (forall k :: k in s.orderItems ==> k < s.nextOrderItem)
    && (forall k :: k in s.items ==> k < s.nextItem)
    && (forall k :: k in s.tokens ==> k < s.nextToken)
    && (forall k :: k in s.orderItems ==> s.orderItems[k].order in s.orders)
  }

  /** Query predicates, one per repository finder, so that every query names the same predicate. */
  function HasEmail(email: string): User -> bool {
    (u: User) => u.email == email
  }

  function OfOrder(order: Id): OrderItem -> bool {
    (x: OrderItem) => x.order == order
  }

  function OfSite(site: Id): OrderDetails -> bool {
    (o: OrderDetails) => o.site == site
  }

  function SuppliedBy(user: Id): OrderDetails -> bool {
    (o: OrderDetails) => o.supplier == Some(user)
  }

  function AllocatedTo(site: Id): User -> bool {
    (u: User) => u.site == Some(site)
  }

  /** `findByRoleAndSiteSiteIdAndIsActive(SUPPLIER, site, true)`. */
  function ActiveSupplierAt(site: Id): User -> bool {
    (u: User) => u.role == Supplier && u.site == Some(site) && u.isActive
  }

  function HasName(name: string): Item -> bool {
    (i: Item) => i.name == name
  }

  function OwnedBy(user: Id): AuthToken -> bool {
    (t: AuthToken) => t.user == user
  }

  function HoldsToken(token: string): AuthToken -> bool {
    (t: AuthToken) => t.token == token
  }

  /** `findByEmail`: the user registered under `email`. */
  function UserByEmail(s: Store, email: string): (r: Option<Id>)
    ensures r.Some? ==> r.value in s.users && s.users[r.value].email == email
    ensures Wf(s) && r.None? ==> forall u :: u in s.users ==> s.users[u].email != email
  {
    SelectEmpty(s.users, HasEmail(email), s.nextUser);
    First(Select(s.users, HasEmail(email), s.nextUser))
  }

  /** `findByName`: the catalogue item listed under `name`. */
  function ItemByName(s: Store, name: string): (r: Option<Id>)
    ensures r.Some? ==> r.value in s.items && s.items[r.value].name == name
    ensures Wf(s) && r.None? ==> forall i :: i in s.items ==> s.items[i].name != name
  {
    SelectEmpty(s.items, HasName(name), s.nextItem);
    First(Select(s.items, HasName(name), s.nextItem))
  }

  /** The order items that reference `order`: the order's item list. */
  function ItemsOfOrder(s: Store, order: Id): seq<Id> {
    Select(s.orderItems, OfOrder(order), s.nextOrderItem)
  }

  /** `findBySiteSiteId`: the orders placed for `site`. */
  function OrdersOfSite(s: Store, site: Id): seq<Id> {
    Select(s.orders, OfSite(site), s.nextOrder)
  }

  /** The users allocated to `site`: the site's user list. */
  function UsersOfSite(s: Store, site: Id): seq<Id> {
    Select(s.users, AllocatedTo(site), s.nextUser)
  }

  /** The orders assigned to `user` as supplier: the user's order list. */
  function OrdersOfSupplier(s: Store, user: Id): seq<Id> {
    Select(s.orders, SuppliedBy(user), s.nextOrder)
  }

  /** `findByUserUserId`: the session rows that belong to `user`. */
  function SessionsOf(s: Store, user: Id): seq<Id> {
    Select(s.tokens, OwnedBy(user), s.nextToken)
  }

  /** `findByToken`: the session row holding `token`. */
  function TokenRow(s: Store, token: string): (r: Option<Id>)
    ensures r.Some? ==> r.value in s.tokens && s.tokens[r.value].token == token
    ensures Wf(s) && r.None? ==> forall t :: t in s.tokens ==> s.tokens[t].token != token
  {
    SelectEmpty(s.tokens, HoldsToken(token), s.nextToken);
    First(Select(s.tokens, HoldsToken(token), s.nextToken))
  }

  /** `findBySiteManagerUserId` found a site: `user` is the site manager of some site. */
  predicate ManagesSite(s: Store, user: Id) {
    exists site :: site in s.sites && s.sites[site].siteManager == Some(user)
  }

  /** `findByProcurementManagerUserId` found a site: `user` is the procurement manager of some site. */
  predicate ProcuresForSite(s: Store, user: Id) {
    exists site :: site in s.sites && s.sites[site].procurementManager == Some(user)
  }

  /** No two users share an email address. */
  predicate EmailsUnique(s: Store) {
    forall u, v :: u in s.users && v in s.users && s.users[u].email == s.users[v].email ==> u == v
  }

  /** No user is site manager of two sites, nor procurement manager of two sites. */
  predicate ManagersUnique(s: Store) {
    && (forall a, b ::
          a in s.sites && b in s.sites && s.sites[a].siteManager.Some? &&
          s.sites[a].siteManager == s.sites[b].siteManager
          ==> a == b)
    && (forall a, b ::
          a in s.sites && b in s.sites && s.sites[a].procurementManager.Some? &&
          s.sites[a].procurementManager == s.sites[b].procurementManager
          ==> a == b)
  }

  /** No two catalogue items share a name. */
  predicate NamesUnique(s: Store) {
    forall i, j :: i in s.items && j in s.items && s.items[i].name == s.items[j].name ==> i == j
  }

  /** Every user has at most one session row. */
  predicate SingleSession(s: Store) {
    forall a, b :: a in s.tokens && b in s.tokens && s.tokens[a].user == s.tokens[b].user ==> a == b
  }
}

=== FILE: item_service.dfy ===
/** The item catalogue: a keyed table whose names are checked for uniqueness when an item is listed. */
module ItemService {
  import opened Wrappers
  import opened Tables
  import opened Entities

  /** The catalogue form. `itemId` is ignored when listing and names the item to change when updating. */
  datatype ItemRequest = ItemRequest(
    itemId: Option<Id>,
    name: string,
    description: Option<string>,
    manufacturer: string,
    quantityAvailable: int,
    volumeType: string,
    color: Option<string>)

  /** The record a form describes. Every mapped field is copied, absent optional ones included. */
  function ItemOf(req: ItemRequest): Item {
    Item(req.name, req.description, req.manufacturer, req.quantityAvailable, req.volumeType, req.color)
  }

  /** Whether two distinct listed items carry `name`. */
  predicate NameShared(s: Store, name: string) {
    exists i, j :: i in s.items && j in s.items && i != j && s.items[i].name == name && s.items[j].name == name
  }

  /** `addItem`: list an item under a fresh id unless an item of that name is already listed. The name
      lookup returns at most one row: when two listed items share the name it throws, which surfaces as
      an internal server error. */
  function AddItem(s: Store, req: ItemRequest): (r: Result<Store>)
    ensures Wf(s) ==> (r.Err? <==> exists i :: i in s.items && s.items[i].name == req.name)
    ensures r.Err? ==> r.error == Conflict || r.error == InternalServer
    ensures Wf(s) ==> (r == Err(InternalServer) <==> NameShared(s, req.name))
    ensures r.Ok? && Wf(s) ==>
      && s.nextItem !in s.items
      && r.value.items.Keys == s.items.Keys + {s.nextItem}
      && (forall i :: i in s.items ==> r.value.items[i] == s.items[i])
    ensures r.Ok? ==>
      && s.nextItem in r.value.items
      && r.value.items[s.nextItem].name == req.name
      && r.value.items[s.nextItem] == ItemOf(req)
      && r.value == s.(items := r.value.items, nextItem := s.nextItem + 1)
  {
    var named := Select(s.items, HasName(req.name), s.nextItem);
    SelectMany(s.items, HasName(req.name), s.nextItem);
    if |named| > 1 then Err(InternalServer)
    else if ItemByName(s, req.name).Some? then Err(Conflict)
    else Ok(s.(items := s.items[s.nextItem := ItemOf(req)], nextItem := s.nextItem + 1))
  }

  /** Listing keeps the store well formed and names unique; the new item is the one its name finds,
      so listing the same name again is refused. */
  lemma AddItemKeepsNamesUnique(s: Store, req: ItemRequest, req': ItemRequest)
    requires Wf(s) && NamesUnique(s)
    requires AddItem(s, req).Ok?
    ensures Wf(AddItem(s, req).value) && NamesUnique(AddItem(s, req).value)
    ensures ItemByName(AddItem(s, req).value, req.name) == Some(s.nextItem)
    ensures req'.name == req.name ==> AddItem(AddItem(s, req).value, req') == Err(Conflict)
  {
    var t := AddItem(s, req).value;
    assert Wf(t);
    assert NamesUnique(t);
  }

  function AnyItem(): Item -> bool {
    (i: Item) => true
  }

  /** `getAllItems`: every listed item with its id, in id order; an empty catalogue is reported as NotFound. */
  function GetAllItems(s: Store): (r: Result<seq<(Id, Item)>>)
    ensures r.Err? ==> r.error == NotFound
    ensures r.Ok? ==> forall j :: 0 <= j < |r.value| ==> r.value[j].0 in s.items && r.value[j].1 == s.items[r.value[j].0]
    ensures r.Ok? ==> forall i, j :: 0 <= i < j < |r.value| ==> r.value[i].0 < r.value[j].0
  {
    var ids := Select(s.items, AnyItem(), s.nextItem);
    if |ids| == 0 then Err(NotFound)
    else Ok(seq(|ids|, j requires 0 <= j < |ids| => (ids[j], s.items[ids[j]])))
  }

  /** In a well-formed store the listing fails exactly when the catalogue is empty, and otherwise
      has one entry per item and contains every item. */
  lemma GetAllItemsComplete(s: Store)
    requires Wf(s)
    ensures GetAllItems(s).Err? <==> |s.items| == 0
    ensures GetAllItems(s).Ok? ==>
      && |GetAllItems(s).value| == |s.items|
      && forall i :: i in s.items ==> (i, s.items[i]) in GetAllItems(s).value
  {
    var ids := Select(s.items, AnyItem(), s.nextItem);
    SelectCount(s.items, AnyItem(), s.nextItem);
    assert Matching(s.items, AnyItem(), s.nextItem) == s.items.Keys;
    if GetAllItems(s).Ok? {
      var all := GetAllItems(s).value;
      forall i | i in s.items
        ensures (i, s.items[i]) in all
      {
        SelectMembership(s.items, AnyItem(), s.nextItem, i);
        var j :| 0 <= j < |ids| && ids[j] == i;
        assert all[j] == (i, s.items[i]);
      }
    }
  }

  /** `getItem`: the item listed under `itemId`. */
  function GetItem(s: Store, itemId: Id): (r: Result<Item>)
    ensures r.Err? <==> itemId !in s.items
    ensures r.Err? ==> r.error == NotFound
    ensures r.Ok? ==> r.value == s.items[itemId]
  {
    if itemId !in s.items then Err(NotFound) else Ok(s.items[itemId])
  }

  /** `updateItem`: overwrite the item the form names with the form's fields. The name is not
      checked against the other items. A form without an id fails the lookup itself. */
  function UpdateItem(s: Store, req: ItemRequest): (r: Result<Store>)
    ensures r.Err? <==> req.itemId.None? || req.itemId.value !in s.items
    ensures r.Err? ==> r.error == (if req.itemId.None? then InternalServer else NotFound)
    ensures r.Ok? ==>
      && r.value == s.(items := r.value.items)
      && r.value.items.Keys == s.items.Keys
      && (forall i :: i in s.items && Some(i) != req.itemId ==> r.value.items[i] == s.items[i])
    ensures r.Ok? ==> GetItem(r.value, req.itemId.value) == Ok(ItemOf(req))
  {
    match req.itemId
    case None => Err(InternalServer)
    case Some(id) =>
      if id !in s.items then Err(NotFound)
      else Ok(s.(items := s.items[id := ItemOf(req)]))
  }

  /** Updating can give an item the name of another one: uniqueness holds on listing only. */
  lemma UpdateItemCanDuplicateName()
    ensures
      var a := Item("bricks", None, "acme", 10, "unit", None);
      var b := Item("cement", None, "acme", 5, "bag", None);
      var s := Store(map[], map[], map[], map[], map[0 := a, 1 := b], map[], 0, 0, 0, 0, 2, 0);
      var req := ItemRequest(Some(1), "bricks", None, "acme", 5, "bag", None);
      && Wf(s) && NamesUnique(s)
      && UpdateItem(s, req).Ok?
      && !NamesUnique(UpdateItem(s, req).value)
      && AddItem(UpdateItem(s, req).value, ItemRequest(None, "bricks", None, "acme", 1, "unit", None)) == Err(InternalServer)
  {
    var a := Item("bricks", None, "acme", 10, "unit", None);
    var b := Item("cement", None, "acme", 5, "bag", None);
    var s := Store(map[], map[], map[], map[], map[0 := a, 1 := b], map[], 0, 0, 0, 0, 2, 0);
    var req := ItemRequest(Some(1), "bricks", None, "acme", 5, "bag", None);
    assert a.name != b.name;
    var t := UpdateItem(s, req).value;
    assert t.items[0].name == t.items[1].name;
    assert Wf(t) && NameShared(t, "bricks");
  }

  /** `deleteItem`: remove the item listed under `itemId`. */
  function DeleteItem(s: Store, itemId: Id): (r: Result<Store>)
    ensures r.Err? <==> itemId !in s.items
    ensures r.Err? ==> r.error == NotFound
    ensures r.Ok? ==>
      && r.value == s.(items := r.value.items)
      && r.value.items.Keys == s.items.Keys - {itemId}
      && (forall i :: i in r.value.items ==> r.value.items[i] == s.items[i])
  {
    if itemId !in s.items then Err(NotFound) else Ok(s.(items := s.items - {itemId}))
  }

  /** Deleting an item that was just listed gives the catalogue back, with the id spent, and a
      deleted item can no longer be read. */
  lemma AddThenDeleteItem(s: Store, req: ItemRequest)
    requires Wf(s)
    requires AddItem(s, req).Ok?
    ensures DeleteItem(AddItem(s, req).value, s.nextItem) == Ok(s.(nextItem := s.nextItem + 1))
    ensures GetItem(DeleteItem(AddItem(s, req).value, s.nextItem).value, s.nextItem) == Err(NotFound)
  {
    var t := AddItem(s, req).value;
    assert t.items - {s.nextItem} == s.items;
  }
}

=== FILE: order_service.dfy ===
/** The order workflow: placing orders, editing their lines, moving orders and lines through the
    status values, assigning a supplier, and the role-dependent view of a site's orders.

    None of these operations looks at the status an order or line had before, and none checks the
    caller's role: the transitions are unconditional once the looked-up rows exist. */
module OrderService {
  import opened Wrappers
  import opened Tables
  import opened Roles
  import opened Entities

  /** An order line as the client sends it; only `quantity`, `itemId` and `orderId` are used. Both ids
      are nullable in the request. */
  datatype OrderItemRequest = OrderItemRequest(
    orderItemId: Option<Id>,
    quantity: int,
    status: Option<Status>,
    itemId: Option<Id>,
    orderId: Option<Id>)

  /** An order as the client sends it; only `requiredDate` and `items` are used. The lines are always
      present here: a request without a line list is not modelled. */
  datatype OrderRequest = OrderRequest(
    orderId: Option<Id>,
    status: Option<Status>,
    requiredDate: Date,
    items: seq<OrderItemRequest>,
    supplierId: Option<Id>,
    siteId: Option<Id>)

  /** One order line as the caller sees it. */
  datatype OrderItemView = OrderItemView(orderItemId: Id, quantity: int, status: Status, itemId: Id, orderId: Id)

  /** One order as the caller sees it; `items` is absent when the caller's role may not see them. */
  datatype OrderDetailsView = OrderDetailsView(
    orderId: Id,
    status: Status,
    requiredDate: Date,
    siteId: Id,
    supplierId: Option<Id>,
    items: Option<seq<OrderItemView>>)

  // ---------------------------------------------------------------------------------------------
  // Reading a site's orders

  predicate VisibleToProcurementManager(st: Status) {
    st == Pending || st == Approved || st == Cancelled
  }

  predicate VisibleToSupplier(st: Status) {
    st == Approved || st == Returned
  }

  /** Whether a caller with `role` is shown the lines of an order in status `st`. */
  predicate ItemsVisible(role: Role, st: Status) {
    match role
    case ProcurementManager => VisibleToProcurementManager(st)
    case Supplier => VisibleToSupplier(st)
    case _ => true
  }

  /** The lines of an order, in id order. */
  function ItemViews(s: Store, order: Id): (vs: seq<OrderItemView>)
    ensures |vs| == |ItemsOfOrder(s, order)|
    ensures forall i :: 0 <= i < |vs| ==>
              var k := ItemsOfOrder(s, order)[i];
              k in s.orderItems && vs[i].orderItemId == k && vs[i].orderId == order &&
              s.orderItems[k].order == order &&
              vs[i].status == s.orderItems[k].status && vs[i].quantity == s.orderItems[k].quantity &&
              vs[i].itemId == s.orderItems[k].item
  {
    var ids := ItemsOfOrder(s, order);
    seq(|ids|, i requires 0 <= i < |ids| =>
      var x := s.orderItems[ids[i]];
      OrderItemView(ids[i], x.quantity, x.status, x.item, order))
  }

  /** `mapOrderToDTO`: an order as shown to a caller with `role`. */
  function OrderView(s: Store, order: Id, role: Role): (v: OrderDetailsView)
    requires order in s.orders
    ensures v.orderId == order && v.status == s.orders[order].status
    ensures v.requiredDate == s.orders[order].requiredDate && v.siteId == s.orders[order].site
    ensures v.supplierId == s.orders[order].supplier
    ensures role == ProcurementManager ==> (v.items.Some? <==> v.status in {Pending, Approved, Cancelled})
    ensures role == Supplier ==> (v.items.Some? <==> v.status in {Approved, Returned})
    ensures role != ProcurementManager && role != Supplier ==> v.items.Some?
    ensures v.items.Some? ==> v.items.value == ItemViews(s, order)
  {
    var o := s.orders[order];
    OrderDetailsView(order, o.status, o.requiredDate, o.site, o.supplier,
                     if ItemsVisible(role, o.status) then Some(ItemViews(s, order)) else None)
  }

  /** `getAllOrderDetails`: every order of the caller's site, as the caller's role may see it. */
  function GetAllOrderDetails(s: Store, caller: User): (r: Result<seq<OrderDetailsView>>)
    ensures caller.site.None? ==> r == Err(NotFound)
    ensures caller.site.Some? && Wf(s) ==>
              (r == Err(NotFound) <==> forall o :: o in s.orders ==> s.orders[o].site != caller.site.value)
    ensures r.Err? ==> r.error == NotFound
    ensures r.Ok? ==> caller.site.Some? && |r.value| > 0
    ensures r.Ok? ==> forall i :: 0 <= i < |r.value| ==>
              r.value[i].orderId in s.orders && r.value[i].siteId == caller.site.value &&
              r.value[i] == OrderView(s, r.value[i].orderId, caller.role)
    ensures r.Ok? ==> forall i, j :: 0 <= i < j < |r.value| ==> r.value[i].orderId < r.value[j].orderId
  {
    if caller.site.None? then Err(NotFound)
    else
      var ids := OrdersOfSite(s, caller.site.value);
      SelectEmpty(s.orders, OfSite(caller.site.value), s.nextOrder);
      if |ids| == 0 then Err(NotFound)
      else Ok(seq(|ids|, i requires 0 <= i < |ids| => OrderView(s, ids[i], caller.role)))
  }

  /** Every order of the caller's site appears in the listing. */
  lemma GetAllOrderDetailsComplete(s: Store, caller: User, order: Id)
    requires Wf(s) && caller.site.Some?
    requires order in s.orders && s.orders[order].site == caller.site.value
    ensures GetAllOrderDetails(s, caller).Ok?
    ensures exists i :: 0 <= i < |GetAllOrderDetails(s, caller).value| &&
                        GetAllOrderDetails(s, caller).value[i].orderId == order
  {
    var ids := OrdersOfSite(s, caller.site.value);
    SelectMembership(s.orders, OfSite(caller.site.value), s.nextOrder, order);
    var i :| 0 <= i < |ids| && ids[i] == order;
    assert GetAllOrderDetails(s, caller).value[i].orderId == order;
  }

  // ---------------------------------------------------------------------------------------------
  // Placing an order

  /** The line stored for a request line: quantity from the request, status Pending. */
  function NewOrderItem(line: OrderItemRequest, order: Id): OrderItem
    requires line.itemId.Some?
  {
    OrderItem(line.quantity, Pending, line.itemId.value, order)
  }

  /** Whether a request line carries an item id that names a catalogue item. */
  predicate Resolves(items: map<Id, Item>, line: OrderItemRequest) {
    line.itemId.Some? && line.itemId.value in items
  }

  /** Whether every request line carries an item id (a missing one makes the repository lookup throw). */
  predicate AllNamed(lines: seq<OrderItemRequest>) {
    forall j :: 0 <= j < |lines| ==> lines[j].itemId.Some?
  }

  /** The request lines whose item id resolves in the catalogue, in request order. */
  function Resolvable(items: map<Id, Item>, lines: seq<OrderItemRequest>): (res: seq<OrderItemRequest>)
    ensures |res| <= |lines|
    ensures forall j :: 0 <= j < |res| ==> Resolves(items, res[j])
  {
    if |lines| == 0 then []
    else (if Resolves(items, lines[0]) then [lines[0]] else []) + Resolvable(items, lines[1..])
  }

  /** `Resolvable` keeps each resolvable request line exactly as often as it occurs and drops every
      other line. */
  lemma {:induction false} ResolvableCounts(items: map<Id, Item>, lines: seq<OrderItemRequest>)
    ensures forall x :: multiset(Resolvable(items, lines))[x] == if Resolves(items, x) then multiset(lines)[x] else 0
    decreases |lines|
  {
    if |lines| > 0 {
      ResolvableCounts(items, lines[1..]);
      assert lines == [lines[0]] + lines[1..];
    }
  }

  /** When every request line resolves, `Resolvable` keeps them all; when none does, it keeps none. */
  lemma {:induction false} ResolvableExtremes(items: map<Id, Item>, lines: seq<OrderItemRequest>)
    ensures (forall j :: 0 <= j < |lines| ==> Resolves(items, lines[j])) ==> Resolvable(items, lines) == lines
    ensures (forall j :: 0 <= j < |lines| ==> !Resolves(items, lines[j])) ==> Resolvable(items, lines) == []
    decreases |lines|
  {
    if |lines| > 0 {
      ResolvableExtremes(items, lines[1..]);
      assert lines == [lines[0]] + lines[1..];
    }
  }

  /** Stores `x` under the next order-item id. */
  function InsertOrderItem(s: Store, x: OrderItem): Store {
    s.(orderItems := s.orderItems[s.nextOrderItem := x], nextOrderItem := s.nextOrderItem + 1)
  }

  /** The loop of `addOrder` over the request lines: one Pending line per resolvable item id,
      silently skipping the others. */
  function AddLines(s: Store, order: Id, lines: seq<OrderItemRequest>): (s': Store)
    ensures s' == s.(orderItems := s'.orderItems, nextOrderItem := s'.nextOrderItem)
    ensures s'.nextOrderItem == s.nextOrderItem + |Resolvable(s.items, lines)|
    decreases |lines|
  {
    if |lines| == 0 then s
    else
      var line := lines[0];
      var s1 := if Resolves(s.items, line) then InsertOrderItem(s, NewOrderItem(line, order)) else s;
      AddLines(s1, order, lines[1..])
  }

  /** `addOrder`'s loop keeps the store well formed, only adds keys from the fresh id range, and
      leaves every existing line as it was. */
  lemma {:induction false} AddLinesFrame(s: Store, order: Id, lines: seq<OrderItemRequest>)
    requires Wf(s) && order in s.orders
    ensures Wf(AddLines(s, order, lines))
    ensures forall k :: k in AddLines(s, order, lines).orderItems <==>
                        k in s.orderItems || s.nextOrderItem <= k < AddLines(s, order, lines).nextOrderItem
    ensures forall k :: k in s.orderItems ==> AddLines(s, order, lines).orderItems[k] == s.orderItems[k]
    decreases |lines|
  {
    if |lines| > 0 {
      var line := lines[0];
      var s1 := if Resolves(s.items, line) then InsertOrderItem(s, NewOrderItem(line, order)) else s;
      assert Wf(s1);
      AddLinesFrame(s1, order, lines[1..]);
    }
  }

  /** The lines `addOrder` stores are exactly the resolvable request lines, in request order, under
      consecutive fresh ids. */
  lemma {:induction false} AddLinesContents(s: Store, order: Id, lines: seq<OrderItemRequest>)
    ensures forall k :: s.nextOrderItem <= k < s.nextOrderItem + |Resolvable(s.items, lines)| ==>
              && k in AddLines(s, order, lines).orderItems
              && AddLines(s, order, lines).orderItems[k] == NewOrderItem(Resolvable(s.items, lines)[k - s.nextOrderItem], order)
    decreases |lines|, 1
  {
    if |lines| > 0 {
      if Resolves(s.items, lines[0]) {
        AddLinesContentsStored(s, order, lines);
      } else {
        AddLinesContents(s, order, lines[1..]);
        assert AddLines(s, order, lines) == AddLines(s, order, lines[1..]);
        assert Resolvable(s.items, lines) == Resolvable(s.items, lines[1..]);
      }
    }
  }

  /** `addOrder`'s loop never overwrites a line stored under an id below the next fresh id. */
  lemma {:induction false} AddLinesKeepsLine(s: Store, order: Id, lines: seq<OrderItemRequest>, k: Id)
    requires k in s.orderItems && k < s.nextOrderItem
    ensures k in AddLines(s, order, lines).orderItems && AddLines(s, order, lines).orderItems[k] == s.orderItems[k]
    decreases |lines|
  {
    if |lines| > 0 {
      var line := lines[0];
      var s1 := if Resolves(s.items, line) then InsertOrderItem(s, NewOrderItem(line, order)) else s;
      AddLinesKeepsLine(s1, order, lines[1..], k);
    }
  }

  /** The step of `AddLinesContents` for a first line that resolves: it is stored under the next id and
      the remaining lines follow it. */
  lemma {:induction false} AddLinesContentsStored(s: Store, order: Id, lines: seq<OrderItemRequest>)
    requires |lines| > 0 && Resolves(s.items, lines[0])
    ensures forall k :: s.nextOrderItem <= k < s.nextOrderItem + |Resolvable(s.items, lines)| ==>
              && k in AddLines(s, order, lines).orderItems
              && AddLines(s, order, lines).orderItems[k] == NewOrderItem(Resolvable(s.items, lines)[k - s.nextOrderItem], order)
    decreases |lines|, 0
  {
    var line := lines[0];
    var rest := Resolvable(s.items, lines[1..]);
    var s1 := InsertOrderItem(s, NewOrderItem(line, order));
    AddLinesContents(s1, order, lines[1..]);
    AddLinesKeepsLine(s1, order, lines[1..], s.nextOrderItem);
    var s' := AddLines(s1, order, lines[1..]);
    assert AddLines(s, order, lines) == s';
    var res := Resolvable(s.items, lines);
    assert res == [line] + rest;
    assert s.nextOrderItem in s1.orderItems;
    forall k | s.nextOrderItem <= k < s.nextOrderItem + |res|
      ensures k in s'.orderItems && s'.orderItems[k] == NewOrderItem(res[k - s.nextOrderItem], order)
    {
      if k != s.nextOrderItem {
        assert res[k - s.nextOrderItem] == rest[k - s1.nextOrderItem];
      }
    }
  }

  /** `addOrder`'s loop adds one line to `order` per resolvable request line and none to any other order. */
  lemma {:induction false} AddLinesCount(s: Store, order: Id, lines: seq<OrderItemRequest>)
    ensures var s' := AddLines(s, order, lines);
      && |ItemsOfOrder(s', order)| == |ItemsOfOrder(s, order)| + |Resolvable(s.items, lines)|
      && (forall o :: o != order ==> ItemsOfOrder(s', o) == ItemsOfOrder(s, o))
    decreases |lines|
  {
    if |lines| > 0 {
      var line := lines[0];
      var s1 := if Resolves(s.items, line) then InsertOrderItem(s, NewOrderItem(line, order)) else s;
      AddLinesCount(s1, order, lines[1..]);
      if Resolves(s.items, line) {
        ExtendItemsOfOrder(s, NewOrderItem(line, order));
      }
    }
  }

  /** Inserting a line under the next id appends it to its own order's list and to no other. */
  lemma ExtendItemsOfOrder(s: Store, x: OrderItem)
    ensures ItemsOfOrder(InsertOrderItem(s, x), x.order) == ItemsOfOrder(s, x.order) + [s.nextOrderItem]
    ensures forall o :: o != x.order ==> ItemsOfOrder(InsertOrderItem(s, x), o) == ItemsOfOrder(s, o)
  {
    SelectExtend(s.orderItems, OfOrder(x.order), s.nextOrderItem, x);
    forall o | o != x.order
      ensures ItemsOfOrder(InsertOrderItem(s, x), o) == ItemsOfOrder(s, o)
    {
      SelectExtend(s.orderItems, OfOrder(o), s.nextOrderItem, x);
    }
  }

  /** `addOrder`: a Pending order for the caller's site, with no supplier, and one Pending line per
      request line whose item exists. Fails with NotFound, storing nothing, when the caller has no site.
      A line without an item id makes the repository lookup throw; the transaction is rolled back, so
      nothing is stored and the call fails with an internal server error. */
  function AddOrder(s: Store, caller: User, req: OrderRequest): (r: Result<Store>)
    ensures r.Err? <==> caller.site.None? || !AllNamed(req.items)
    ensures caller.site.None? ==> r == Err(NotFound)
    ensures caller.site.Some? && (exists j :: 0 <= j < |req.items| && req.items[j].itemId.None?) ==>
              r == Err(InternalServer)
    ensures r.Ok? ==> r.value.orders == s.orders[s.nextOrder := OrderDetails(Pending, req.requiredDate, caller.site.value, None)]
    ensures r.Ok? ==> r.value.nextOrder == s.nextOrder + 1
    ensures r.Ok? ==> r.value.nextOrderItem == s.nextOrderItem + |Resolvable(s.items, req.items)|
    ensures r.Ok? ==> r.value.users == s.users && r.value.sites == s.sites && r.value.items == s.items &&
                      r.value.tokens == s.tokens
  {
    if caller.site.None? then Err(NotFound)
    else if !AllNamed(req.items) then Err(InternalServer)
    else Ok(AddLines(WithOrder(s, caller, req), s.nextOrder, req.items))
  }

  /** The store before the lines are added: the new order row under the next order id. */
  function WithOrder(s: Store, caller: User, req: OrderRequest): Store
    requires caller.site.Some?
  {
    s.(orders := s.orders[s.nextOrder := OrderDetails(Pending, req.requiredDate, caller.site.value, None)],
       nextOrder := s.nextOrder + 1)
  }

  /** A placed order holds one line per resolvable request line; every order placed before keeps its
      lines, and the store stays well formed. */
  lemma AddOrderPlaces(s: Store, caller: User, req: OrderRequest)
    requires Wf(s) && caller.site.Some? && AllNamed(req.items)
    ensures Wf(AddOrder(s, caller, req).value)
    ensures |ItemsOfOrder(AddOrder(s, caller, req).value, s.nextOrder)| == |Resolvable(s.items, req.items)|
    ensures forall o :: o in s.orders ==> ItemsOfOrder(AddOrder(s, caller, req).value, o) == ItemsOfOrder(s, o)
  {
    var s1 := WithOrder(s, caller, req);
    assert Wf(s1);
    AddLinesFrame(s1, s.nextOrder, req.items);
    AddLinesCount(s1, s.nextOrder, req.items);
    SelectEmpty(s1.orderItems, OfOrder(s.nextOrder), s1.nextOrderItem);
  }

  /** Every line of a placed order is Pending and names a catalogue item. */
  lemma AddOrderLinesPending(s: Store, caller: User, req: OrderRequest)
    requires Wf(s) && caller.site.Some? && AllNamed(req.items)
    ensures var s' := AddOrder(s, caller, req).value;
      forall k :: k in ItemsOfOrder(s', s.nextOrder) ==>
        s'.orderItems[k].status == Pending && s'.orderItems[k].item in s.items
  {
    var o := s.nextOrder;
    var s1 := WithOrder(s, caller, req);
    var s' := AddLines(s1, o, req.items);
    assert Wf(s1);
    AddLinesFrame(s1, o, req.items);
    AddLinesContents(s1, o, req.items);
    forall k | k in ItemsOfOrder(s', o)
      ensures s'.orderItems[k].status == Pending && s'.orderItems[k].item in s.items
    {
      SelectMembership(s'.orderItems, OfOrder(o), s'.nextOrderItem, k);
      assert k !in s1.orderItems;
      var res := Resolvable(s.items, req.items);
      assert s'.orderItems[k] == NewOrderItem(res[k - s1.nextOrderItem], o);
    }
  }

  /** A placed order is appended to its site's order list. */
  lemma AddOrderListed(s: Store, caller: User, req: OrderRequest)
    requires Wf(s) && caller.site.Some? && AllNamed(req.items)
    ensures OrdersOfSite(AddOrder(s, caller, req).value, caller.site.value) ==
            OrdersOfSite(s, caller.site.value) + [s.nextOrder]
  {
    var s1 := WithOrder(s, caller, req);
    SelectExtend(s.orders, OfSite(caller.site.value), s.nextOrder, s1.orders[s.nextOrder]);
  }

  // ---------------------------------------------------------------------------------------------
  // Editing the lines of an order

  /** `addOrderItem`: a Pending line for an existing order and an existing item. The order is looked up
      first, then the item; a missing id is rejected by the repository at its lookup, which surfaces as
      an internal server error. */
  function AddOrderItem(s: Store, req: OrderItemRequest): (r: Result<Store>)
    ensures req.orderId.None? ==> r == Err(InternalServer)
    ensures req.orderId.Some? && req.orderId.value !in s.orders ==> r == Err(NotFound)
    ensures req.orderId.Some? && req.orderId.value in s.orders && req.itemId.None? ==> r == Err(InternalServer)
    ensures req.orderId.Some? && req.orderId.value in s.orders && req.itemId.Some? && req.itemId.value !in s.items ==>
              r == Err(NotFound)
    ensures r.Ok? <==> req.orderId.Some? && req.orderId.value in s.orders && Resolves(s.items, req)
    ensures r.Ok? ==> r.value.orderItems == s.orderItems[s.nextOrderItem := OrderItem(req.quantity, Pending, req.itemId.value, req.orderId.value)]
    ensures r.Ok? ==> r.value.nextOrderItem == s.nextOrderItem + 1
    ensures r.Ok? ==> r.value == s.(orderItems := r.value.orderItems, nextOrderItem := s.nextOrderItem + 1)
  {
    if req.orderId.None? then Err(InternalServer)
    else if req.orderId.value !in s.orders then Err(NotFound)
    else if req.itemId.None? then Err(InternalServer)
    else if req.itemId.value !in s.items then Err(NotFound)
    else Ok(InsertOrderItem(s, NewOrderItem(req, req.orderId.value)))
  }

  /** A line added to an order is appended to that order's list, and no other order's list changes. */
  lemma AddOrderItemAppends(s: Store, req: OrderItemRequest)
    requires Wf(s) && AddOrderItem(s, req).Ok?
    ensures Wf(AddOrderItem(s, req).value)
    ensures ItemsOfOrder(AddOrderItem(s, req).value, req.orderId.value) ==
            ItemsOfOrder(s, req.orderId.value) + [s.nextOrderItem]
    ensures forall o :: o != req.orderId.value ==> ItemsOfOrder(AddOrderItem(s, req).value, o) == ItemsOfOrder(s, o)
  {
    ExtendItemsOfOrder(s, NewOrderItem(req, req.orderId.value));
  }

  /** `removeOrderItem`: deletes a line unless it is the only line of its order. */
  function RemoveOrderItem(s: Store, orderItemId: Id): (r: Result<Store>)
    ensures orderItemId !in s.orderItems ==> r == Err(NotFound)
    ensures orderItemId in s.orderItems && s.orderItems[orderItemId].order !in s.orders ==> r == Err(NotFound)
    ensures orderItemId in s.orderItems && s.orderItems[orderItemId].order in s.orders && Wf(s) ==>
              (r == Err(BadRequest) <==> ItemsOfOrder(s, s.orderItems[orderItemId].order) == [orderItemId])
    ensures Wf(s) ==>
              (r.Ok? <==> orderItemId in s.orderItems && s.orderItems[orderItemId].order in s.orders &&
                          ItemsOfOrder(s, s.orderItems[orderItemId].order) != [orderItemId])
    ensures r.Err? ==> r.error == NotFound || r.error == BadRequest
    ensures r.Ok? ==> orderItemId in s.orderItems && r.value.orderItems == s.orderItems - {orderItemId}
    ensures r.Ok? ==> r.value == s.(orderItems := r.value.orderItems)
  {
    if orderItemId !in s.orderItems then Err(NotFound)
    else
      var order := s.orderItems[orderItemId].order;
      if order !in s.orders then Err(NotFound)
      else if |ItemsOfOrder(s, order)| == 1 then
        SelectMembership(s.orderItems, OfOrder(order), s.nextOrderItem, orderItemId);
        Err(BadRequest)
      else Ok(s.(orderItems := s.orderItems - {orderItemId}))
  }

  /** Removing a line shortens its order's list by one and never empties it: an order that had at least
      one line keeps at least one. */
  lemma RemoveOrderItemKeepsOne(s: Store, orderItemId: Id)
    requires Wf(s) && RemoveOrderItem(s, orderItemId).Ok?
    ensures var order := s.orderItems[orderItemId].order;
      && |ItemsOfOrder(RemoveOrderItem(s, orderItemId).value, order)| == |ItemsOfOrder(s, order)| - 1
      && |ItemsOfOrder(RemoveOrderItem(s, orderItemId).value, order)| >= 1
    ensures Wf(RemoveOrderItem(s, orderItemId).value)
  {
    var order := s.orderItems[orderItemId].order;
    SelectMembership(s.orderItems, OfOrder(order), s.nextOrderItem, orderItemId);
    SelectRemove(s.orderItems, OfOrder(order), s.nextOrderItem, orderItemId);
  }

  /** Removing the line just added restores the line table; the id counter has moved on. */
  lemma AddThenRemoveOrderItem(s: Store, req: OrderItemRequest)
    requires Wf(s) && AddOrderItem(s, req).Ok?
    requires |ItemsOfOrder(s, req.orderId.value)| > 0
    ensures RemoveOrderItem(AddOrderItem(s, req).value, s.nextOrderItem).Ok?
    ensures RemoveOrderItem(AddOrderItem(s, req).value, s.nextOrderItem).value ==
            s.(nextOrderItem := s.nextOrderItem + 1)
  {
    var s1 := AddOrderItem(s, req).value;
    AddOrderItemAppends(s, req);
    assert s.nextOrderItem !in s.orderItems;
    assert s1.orderItems - {s.nextOrderItem} == s.orderItems;
  }

  // ---------------------------------------------------------------------------------------------
  // Status transitions

  /** The order-level transitions: the order and every line of it take `st`. The order's previous
      status is not consulted. */
  function SetOrderStatus(s: Store, orderId: Id, st: Status): (r: Result<Store>)
    ensures r.Err? <==> orderId !in s.orders
    ensures r.Err? ==> r.error == NotFound
    ensures r.Ok? ==> r.value.orders == s.orders[orderId := s.orders[orderId].(status := st)]
    ensures r.Ok? ==> r.value.orderItems.Keys == s.orderItems.Keys
    ensures r.Ok? && Wf(s) ==> forall k :: k in s.orderItems ==>
              r.value.orderItems[k] ==
                if s.orderItems[k].order == orderId then s.orderItems[k].(status := st) else s.orderItems[k]
    ensures r.Ok? ==> r.value == s.(orders := r.value.orders, orderItems := r.value.orderItems)
  {
    if orderId !in s.orders then Err(NotFound)
    else
      var lines := ItemsOfOrder(s, orderId);
      var items := map k | k in s.orderItems ::
                     if k in lines then s.orderItems[k].(status := st) else s.orderItems[k];
      assert Wf(s) ==> forall k :: k in s.orderItems ==> (k in lines <==> s.orderItems[k].order == orderId) by {
        if Wf(s) {
          forall k | k in s.orderItems
            ensures k in lines <==> s.orderItems[k].order == orderId
          {
            SelectMembership(s.orderItems, OfOrder(orderId), s.nextOrderItem, k);
          }
        }
      }
      Ok(s.(orders := s.orders[orderId := s.orders[orderId].(status := st)], orderItems := items))
  }

  /** A status transition keeps every order's list of lines and the well-formedness of the store. */
  lemma SetOrderStatusKeepsLines(s: Store, orderId: Id, st: Status)
    requires Wf(s) && orderId in s.orders
    ensures Wf(SetOrderStatus(s, orderId, st).value)
    ensures forall o :: ItemsOfOrder(SetOrderStatus(s, orderId, st).value, o) == ItemsOfOrder(s, o)
  {
    var s' := SetOrderStatus(s, orderId, st).value;
    forall o ensures ItemsOfOrder(s', o) == ItemsOfOrder(s, o) {
      SelectAgree(s'.orderItems, OfOrder(o), s.orderItems, OfOrder(o), s.nextOrderItem);
    }
  }

  /** Afterwards the order and all of its lines carry `st`. */
  lemma SetOrderStatusReaches(s: Store, orderId: Id, st: Status)
    requires Wf(s) && orderId in s.orders
    ensures SetOrderStatus(s, orderId, st).value.orders[orderId].status == st
    ensures forall k :: k in ItemsOfOrder(SetOrderStatus(s, orderId, st).value, orderId) ==>
              SetOrderStatus(s, orderId, st).value.orderItems[k].status == st
  {
    var s' := SetOrderStatus(s, orderId, st).value;
    SetOrderStatusKeepsLines(s, orderId, st);
    forall k | k in ItemsOfOrder(s', orderId)
      ensures s'.orderItems[k].status == st
    {
      SelectMembership(s.orderItems, OfOrder(orderId), s.nextOrderItem, k);
    }
  }

  /** Repeating a transition changes nothing. */
  lemma SetOrderStatusIdempotent(s: Store, orderId: Id, st: Status)
    requires Wf(s) && orderId in s.orders
    ensures SetOrderStatus(SetOrderStatus(s, orderId, st).value, orderId, st) == SetOrderStatus(s, orderId, st)
  {
    var s1 := SetOrderStatus(s, orderId, st).value;
    SetOrderStatusKeepsLines(s, orderId, st);
    var s2 := SetOrderStatus(s1, orderId, st).value;
    assert s2.orders == s1.orders;
    assert s2.orderItems == s1.orderItems;
  }

  /** `setAsApproved`. */
  function SetAsApproved(s: Store, orderId: Id): (r: Result<Store>)
    ensures r.Err? <==> orderId !in s.orders
    ensures r.Err? ==> r.error == NotFound
    ensures r.Ok? ==> orderId in r.value.orders && r.value.orders[orderId].status == Approved
  {
    SetOrderStatus(s, orderId, Approved)
  }

  /** `setAsCanceled`. */
  function SetAsCanceled(s: Store, orderId: Id): (r: Result<Store>)
    ensures r.Err? <==> orderId !in s.orders
    ensures r.Err? ==> r.error == NotFound
    ensures r.Ok? ==> orderId in r.value.orders && r.value.orders[orderId].status == Cancelled
  {
    SetOrderStatus(s, orderId, Cancelled)
  }

  /** `setAsDelivered`. */
  function SetAsDelivered(s: Store, orderId: Id): (r: Result<Store>)
    ensures r.Err? <==> orderId !in s.orders
    ensures r.Err? ==> r.error == NotFound
    ensures r.Ok? ==> orderId in r.value.orders && r.value.orders[orderId].status == Delivered
  {
    SetOrderStatus(s, orderId, Delivered)
  }

  /** `setAsComplete`. */
  function SetAsComplete(s: Store, orderId: Id): (r: Result<Store>)
    ensures r.Err? <==> orderId !in s.orders
    ensures r.Err? ==> r.error == NotFound
    ensures r.Ok? ==> orderId in r.value.orders && r.value.orders[orderId].status == Completed
  {
    SetOrderStatus(s, orderId, Completed)
  }

  /** A freshly placed order, once approved, is Approved together with every one of its lines, and the
      approval keeps all of its lines. */
  lemma PlaceThenApprove(s: Store, caller: User, req: OrderRequest)
    requires Wf(s) && caller.site.Some? && AllNamed(req.items)
    ensures var s1 := AddOrder(s, caller, req).value;
      && SetAsApproved(s1, s.nextOrder).Ok?
      && var s2 := SetAsApproved(s1, s.nextOrder).value;
      && s2.orders[s.nextOrder].status == Approved
      && |ItemsOfOrder(s2, s.nextOrder)| == |Resolvable(s.items, req.items)|
      && (forall k :: k in ItemsOfOrder(s2, s.nextOrder) ==> s2.orderItems[k].status == Approved)
  {
    var s1 := AddOrder(s, caller, req).value;
    AddOrderPlaces(s, caller, req);
    AddOrderLinesPending(s, caller, req);
    SetOrderStatusKeepsLines(s1, s.nextOrder, Approved);
    SetOrderStatusReaches(s1, s.nextOrder, Approved);
  }

  /** The line-level transitions: only that line's status changes; its order and sibling lines keep theirs. */
  function SetItemStatus(s: Store, orderItemId: Id, st: Status): (r: Result<Store>)
    ensures r.Err? <==> orderItemId !in s.orderItems
    ensures r.Err? ==> r.error == NotFound
    ensures r.Ok? ==> r.value.orderItems.Keys == s.orderItems.Keys
    ensures r.Ok? ==> r.value.orderItems[orderItemId].status == st
    ensures r.Ok? ==> forall k :: k in s.orderItems ==>
              r.value.orderItems[k].order == s.orderItems[k].order && r.value.orderItems[k].item == s.orderItems[k].item &&
              r.value.orderItems[k].quantity == s.orderItems[k].quantity &&
              (k != orderItemId ==> r.value.orderItems[k] == s.orderItems[k])
    ensures r.Ok? ==> r.value == s.(orderItems := r.value.orderItems)
  {
    if orderItemId !in s.orderItems then Err(NotFound)
    else Ok(s.(orderItems := s.orderItems[orderItemId := s.orderItems[orderItemId].(status := st)]))
  }

  /** A line-level transition keeps every order's list of lines and every order's own status. */
  lemma SetItemStatusKeepsLines(s: Store, orderItemId: Id, st: Status)
    requires Wf(s) && orderItemId in s.orderItems
    ensures Wf(SetItemStatus(s, orderItemId, st).value)
    ensures forall o :: ItemsOfOrder(SetItemStatus(s, orderItemId, st).value, o) == ItemsOfOrder(s, o)
  {
    var s' := SetItemStatus(s, orderItemId, st).value;
    forall o ensures ItemsOfOrder(s', o) == ItemsOfOrder(s, o) {
      SelectAgree(s'.orderItems, OfOrder(o), s.orderItems, OfOrder(o), s.nextOrderItem);
    }
  }

  /** `setAsCompleteItem`. */
  function SetAsCompleteItem(s: Store, orderItemId: Id): (r: Result<Store>)
    ensures r.Err? <==> orderItemId !in s.orderItems
    ensures r.Err? ==> r.error == NotFound
    ensures r.Ok? ==> orderItemId in r.value.orderItems && r.value.orderItems[orderItemId].status == Completed
  {
    SetItemStatus(s, orderItemId, Completed)
  }

  /** `setAsReturnItem`. */
  function SetAsReturnItem(s: Store, orderItemId: Id): (r: Result<Store>)
    ensures r.Err? <==> orderItemId !in s.orderItems
    ensures r.Err? ==> r.error == NotFound
    ensures r.Ok? ==> orderItemId in r.value.orderItems && r.value.orderItems[orderItemId].status == Returned
  {
    SetItemStatus(s, orderItemId, Returned)
  }

  /** `setAsDeliveredItem`. */
  function SetAsDeliveredItem(s: Store, orderItemId: Id): (r: Result<Store>)
    ensures r.Err? <==> orderItemId !in s.orderItems
    ensures r.Err? ==> r.error == NotFound
    ensures r.Ok? ==> orderItemId in r.value.orderItems && r.value.orderItems[orderItemId].status == Delivered
  {
    SetItemStatus(s, orderItemId, Delivered)
  }

  /** `setAsCancelledItem`. */
  function SetAsCancelledItem(s: Store, orderItemId: Id): (r: Result<Store>)
    ensures r.Err? <==> orderItemId !in s.orderItems
    ensures r.Err? ==> r.error == NotFound
    ensures r.Ok? ==> orderItemId in r.value.orderItems && r.value.orderItems[orderItemId].status == Cancelled
  {
    SetItemStatus(s, orderItemId, Cancelled)
  }

  // ---------------------------------------------------------------------------------------------
  // Suppliers

  /** `getSuppliers`: the active suppliers allocated to the caller's site, in id order. */
  function GetSuppliers(s: Store, caller: User): (r: Result<seq<Id>>)
    ensures caller.site.None? ==> r == Err(NotFound)
    ensures r.Err? ==> r.error == NotFound
    ensures r.Ok? ==> caller.site.Some? && |r.value| > 0
    ensures r.Ok? ==> forall i :: 0 <= i < |r.value| ==>
              r.value[i] in s.users && s.users[r.value[i]].role == Supplier &&
              s.users[r.value[i]].site == caller.site && s.users[r.value[i]].isActive
    ensures caller.site.Some? && Wf(s) ==>
              (r.Err? <==> forall u :: u in s.users ==> !ActiveSupplierAt(caller.site.value)(s.users[u]))
    ensures r.Ok? ==> forall i, j :: 0 <= i < j < |r.value| ==> r.value[i] < r.value[j]
  {
    if caller.site.None? then Err(NotFound)
    else
      var ids := Select(s.users, ActiveSupplierAt(caller.site.value), s.nextUser);
      SelectEmpty(s.users, ActiveSupplierAt(caller.site.value), s.nextUser);
      if |ids| == 0 then Err(NotFound) else Ok(ids)
  }

  /** Every active supplier allocated to the caller's site is listed. */
  lemma GetSuppliersComplete(s: Store, caller: User, u: Id)
    requires Wf(s) && caller.site.Some?
    requires u in s.users && s.users[u].role == Supplier && s.users[u].isActive && s.users[u].site == caller.site
    ensures GetSuppliers(s, caller).Ok? && u in GetSuppliers(s, caller).value
  {
    SelectMembership(s.users, ActiveSupplierAt(caller.site.value), s.nextUser, u);
  }

  /** Every order with a supplier names a stored user whose role is Supplier. */
  predicate SuppliersHaveSupplierRole(s: Store) {
    forall o :: o in s.orders && s.orders[o].supplier.Some? ==>
      s.orders[o].supplier.value in s.users && s.users[s.orders[o].supplier.value].role == Supplier
  }

  /** `assignSupplier` as the source writes it. The third check repeats the first (the order's site
      against the caller's site), so the supplier's own site is never compared with the order's. */
  function AssignSupplierAsWritten(s: Store, caller: User, orderId: Id, supplierId: Id): (r: Result<Store>)
    ensures caller.site.None? ==> r == Err(NotFound)
    ensures caller.site.Some? && orderId !in s.orders ==> r == Err(NotFound)
    ensures caller.site.Some? && orderId in s.orders && supplierId !in s.users ==> r == Err(NotFound)
    ensures r.Ok? <==> caller.site.Some? && orderId in s.orders && supplierId in s.users &&
                       s.orders[orderId].site == caller.site.value && s.users[supplierId].role == Supplier
    ensures r.Err? && caller.site.Some? && orderId in s.orders && supplierId in s.users ==> r.error == BadRequest
    ensures r.Ok? ==> r.value == s.(orders := s.orders[orderId := s.orders[orderId].(supplier := Some(supplierId))])
  {
    if caller.site.None? then Err(NotFound)
    else if orderId !in s.orders then Err(NotFound)
    else if supplierId !in s.users then Err(NotFound)
    else if s.orders[orderId].site != caller.site.value then Err(BadRequest)
    else if RoleName(s.users[supplierId].role) != "SUPPLIER" then
      RoleNameShape(s.users[supplierId].role, Supplier);
      Err(BadRequest)
    else if s.orders[orderId].site != caller.site.value then Err(BadRequest)
    else
      RoleNameShape(s.users[supplierId].role, Supplier);
      Ok(s.(orders := s.orders[orderId := s.orders[orderId].(supplier := Some(supplierId))]))
  }

  /** A supplier allocated to no site at all passes every check of the as-written `assignSupplier`. */
  lemma AssignSupplierAcceptsForeignSupplier()
    ensures var site := 0;
      var supplier := User("s", "s", "s@x.io", "0000000", "pw", Supplier, true, None);
      var s := Store(map[0 := supplier], map[], map[0 := OrderDetails(Pending, 0, site, None)], map[], map[], map[],
                     1, 1, 1, 0, 0, 0);
      var caller := User("m", "m", "m@x.io", "0000000", "pw", SiteManager, true, Some(site));
      AssignSupplierAsWritten(s, caller, 0, 0).Ok?
  {
    RoleNameShape(Supplier, Supplier);
  }

  /** `assignSupplier` with its third check comparing the supplier's site with the order's site, as its
      error message ("invalid supplier assignment for this order") describes. Sets the order's supplier;
      the supplier's order list, which the mapping derives from that column, gains the order. */
  function AssignSupplier(s: Store, caller: User, orderId: Id, supplierId: Id): (r: Result<Store>)
    ensures caller.site.None? ==> r == Err(NotFound)
    ensures caller.site.Some? && orderId !in s.orders ==> r == Err(NotFound)
    ensures caller.site.Some? && orderId in s.orders && supplierId !in s.users ==> r == Err(NotFound)
    ensures r.Ok? <==> caller.site.Some? && orderId in s.orders && supplierId in s.users &&
                       s.orders[orderId].site == caller.site.value && s.users[supplierId].role == Supplier &&
                       s.users[supplierId].site == Some(s.orders[orderId].site)
    ensures r.Err? && caller.site.Some? && orderId in s.orders && supplierId in s.users ==> r.error == BadRequest
    ensures r.Ok? ==> r.value == s.(orders := s.orders[orderId := s.orders[orderId].(supplier := Some(supplierId))])
  {
    if caller.site.None? then Err(NotFound)
    else if orderId !in s.orders then Err(NotFound)
    else if supplierId !in s.users then Err(NotFound)
    else if s.orders[orderId].site != caller.site.value then Err(BadRequest)
    else if RoleName(s.users[supplierId].role) != "SUPPLIER" then
      RoleNameShape(s.users[supplierId].role, Supplier);
      Err(BadRequest)
    else if s.users[supplierId].site != Some(s.orders[orderId].site) then
      Err(BadRequest)
    else
      RoleNameShape(s.users[supplierId].role, Supplier);
      Ok(s.(orders := s.orders[orderId := s.orders[orderId].(supplier := Some(supplierId))]))
  }

  /** After an assignment the order is on the supplier's list, off every other user's list, and the
      supplier belongs to the order's site; the invariant that suppliers have the Supplier role holds. */
  lemma AssignSupplierEffect(s: Store, caller: User, orderId: Id, supplierId: Id)
    requires Wf(s) && AssignSupplier(s, caller, orderId, supplierId).Ok?
    ensures var s' := AssignSupplier(s, caller, orderId, supplierId).value;
      && Wf(s')
      && orderId in OrdersOfSupplier(s', supplierId)
      && (forall u :: u != supplierId ==> orderId !in OrdersOfSupplier(s', u))
      && (SuppliersHaveSupplierRole(s) ==> SuppliersHaveSupplierRole(s'))
      && s'.users[supplierId].site == Some(s'.orders[orderId].site)
  {
    var s' := AssignSupplier(s, caller, orderId, supplierId).value;
    SelectMembership(s'.orders, SuppliedBy(supplierId), s'.nextOrder, orderId);
    forall u | u != supplierId
      ensures orderId !in OrdersOfSupplier(s', u)
    {
      SelectMembership(s'.orders, SuppliedBy(u), s'.nextOrder, orderId);
    }
  }
}

=== FILE: permission.dfy ===
/** The sixteen permission constants and their "scope:action" authority strings. */
module Permissions {
  import opened Wrappers

  /** The resource scope a permission is tagged with. */
  datatype Scope = ProcurementManagerScope | SiteManagerScope | SupplierScope | AdminScope

  /** The action a permission grants within its scope. */
  datatype Action = Read | Update | Create | Delete

  /** The permission constants, in declaration order. */
  datatype Permission =
    | ProcurementManagerRead | ProcurementManagerUpdate | ProcurementManagerCreate | ProcurementManagerDelete
    | SiteManagerRead | SiteManagerUpdate | SiteManagerCreate | SiteManagerDelete
    | SupplierRead | SupplierUpdate | SupplierCreate | SupplierDelete
    | AdminRead | AdminUpdate | AdminCreate | AdminDelete

  /** The lower-case word a scope is written with in an authority string. */
  function ScopeText(sc: Scope): string {
    match sc
    case ProcurementManagerScope => "procurement_manager"
    case SiteManagerScope => "site_manager"
    case SupplierScope => "supplier"
    case AdminScope => "admin"
  }

  /** The lower-case word an action is written with in an authority string. */
  function ActionText(a: Action): string {
    match a
    case Read => "read"
    case Update => "update"
    case Create => "create"
    case Delete => "delete"
  }

  function ScopeOf(p: Permission): Scope {
    match p
    case ProcurementManagerRead | ProcurementManagerUpdate | ProcurementManagerCreate | ProcurementManagerDelete =>
      ProcurementManagerScope
    case SiteManagerRead | SiteManagerUpdate | SiteManagerCreate | SiteManagerDelete => SiteManagerScope
    case SupplierRead | SupplierUpdate | SupplierCreate | SupplierDelete => SupplierScope
    case AdminRead | AdminUpdate | AdminCreate | AdminDelete => AdminScope
  }

  function ActionOf(p: Permission): Action {
    match p
    case ProcurementManagerRead | SiteManagerRead | SupplierRead | AdminRead => Read
    case ProcurementManagerUpdate | SiteManagerUpdate | SupplierUpdate | AdminUpdate => Update
    case ProcurementManagerCreate | SiteManagerCreate | SupplierCreate | AdminCreate => Create
    case ProcurementManagerDelete | SiteManagerDelete | SupplierDelete | AdminDelete => Delete
  }

  /** The constant declared for a (scope, action) pair. */
  function PermissionOf(sc: Scope, a: Action): (p: Permission)
    ensures ScopeOf(p) == sc && ActionOf(p) == a
  {
    match (sc, a)
    case (ProcurementManagerScope, Read) => ProcurementManagerRead
    case (ProcurementManagerScope, Update) => ProcurementManagerUpdate
    case (ProcurementManagerScope, Create) => ProcurementManagerCreate
    case (ProcurementManagerScope, Delete) => ProcurementManagerDelete
    case (SiteManagerScope, Read) => SiteManagerRead
    case (SiteManagerScope, Update) => SiteManagerUpdate
    case (SiteManagerScope, Create) => SiteManagerCreate
    case (SiteManagerScope, Delete) => SiteManagerDelete
    case (SupplierScope, Read) => SupplierRead
    case (SupplierScope, Update) => SupplierUpdate
    case (SupplierScope, Create) => SupplierCreate
    case (SupplierScope, Delete) => SupplierDelete
    case (AdminScope, Read) => AdminRead
    case (AdminScope, Update) => AdminUpdate
    case (AdminScope, Create) => AdminCreate
    case (AdminScope, Delete) => AdminDelete
  }

  /** `getPermission`: the string each constant is declared with. */
  function PermissionString(p: Permission): string {
    match p
    case ProcurementManagerRead => "procurement_manager:read"
    case ProcurementManagerUpdate => "procurement_manager:update"
    case ProcurementManagerCreate => "procurement_manager:create"
    case ProcurementManagerDelete => "procurement_manager:delete"
    case SiteManagerRead => "site_manager:read"
    case SiteManagerUpdate => "site_manager:update"
    case SiteManagerCreate => "site_manager:create"
    case SiteManagerDelete => "site_manager:delete"
    case SupplierRead => "supplier:read"
    case SupplierUpdate => "supplier:update"
    case SupplierCreate => "supplier:create"
    case SupplierDelete => "supplier:delete"
    case AdminRead => "admin:read"
    case AdminUpdate => "admin:update"
    case AdminCreate => "admin:create"
    case AdminDelete => "admin:delete"
  }

  /** The constant's own identifier, as the enum's `name()` reports it. */
  function ConstantName(p: Permission): string {
    match p
    case ProcurementManagerRead => "PROCUREMENT_MANAGER_READ"
    case ProcurementManagerUpdate => "PROCUREMENT_MANAGER_UPDATE"
    case ProcurementManagerCreate => "PROCUREMENT_MANAGER_CREATE"
    case ProcurementManagerDelete => "PROCUREMENT_MANAGER_DELETE"
    case SiteManagerRead => "SITE_MANAGER_READ"
    case SiteManagerUpdate => "SITE_MANAGER_UPDATE"
    case SiteManagerCreate => "SITE_MANAGER_CREATE"
    case SiteManagerDelete => "SITE_MANAGER_DELETE"
    case SupplierRead => "SUPPLIER_READ"
    case SupplierUpdate => "SUPPLIER_UPDATE"
    case SupplierCreate => "SUPPLIER_CREATE"
    case SupplierDelete => "SUPPLIER_DELETE"
    case AdminRead => "ADMIN_READ"
    case AdminUpdate => "ADMIN_UPDATE"
    case AdminCreate => "ADMIN_CREATE"
    case AdminDelete => "ADMIN_DELETE"
  }

  function UpperChar(c: char): char {
    if 'a' <= c <= 'z' then (c as int - 'a' as int + 'A' as int) as char else c
  }

  /** ASCII upper-casing, as the constants' identifiers spell their scope and action words. */
  function Upper(s: string): string {
    seq(|s|, i requires 0 <= i < |s| => UpperChar(s[i]))
  }

  /** Every authority string is the scope word, a colon, then the action word; every constant is
      named by the upper-cased scope word, an underscore, then the upper-cased action word. */
  lemma DeclarationShape(p: Permission)
    ensures PermissionString(p) == ScopeText(ScopeOf(p)) + ":" + ActionText(ActionOf(p))
    ensures ConstantName(p) == Upper(ScopeText(ScopeOf(p))) + "_" + Upper(ActionText(ActionOf(p)))
  {
    match ScopeOf(p)
    case ProcurementManagerScope => ProcurementManagerShape(p);
    case SiteManagerScope => SiteManagerShape(p);
    case SupplierScope => SupplierShape(p);
    case AdminScope => AdminShape(p);
  }

  /** The upper-cased scope and action words. */
  lemma UpperWords()
    ensures Upper("procurement_manager") == "PROCUREMENT_MANAGER"
    ensures Upper("site_manager") == "SITE_MANAGER"
    ensures Upper("supplier") == "SUPPLIER"
    ensures Upper("admin") == "ADMIN"
    ensures Upper("read") == "READ" && Upper("update") == "UPDATE"
    ensures Upper("create") == "CREATE" && Upper("delete") == "DELETE"
  {
  }

  lemma ProcurementManagerShape(p: Permission)
    requires ScopeOf(p) == ProcurementManagerScope
    ensures PermissionString(p) == ScopeText(ScopeOf(p)) + ":" + ActionText(ActionOf(p))
    ensures ConstantName(p) == Upper(ScopeText(ScopeOf(p))) + "_" + Upper(ActionText(ActionOf(p)))
  {
    UpperWords();
  }

  lemma SiteManagerShape(p: Permission)
    requires ScopeOf(p) == SiteManagerScope
    ensures PermissionString(p) == ScopeText(ScopeOf(p)) + ":" + ActionText(ActionOf(p))
    ensures ConstantName(p) == Upper(ScopeText(ScopeOf(p))) + "_" + Upper(ActionText(ActionOf(p)))
  {
    UpperWords();
  }

  lemma SupplierShape(p: Permission)
    requires ScopeOf(p) == SupplierScope
    ensures PermissionString(p) == ScopeText(ScopeOf(p)) + ":" + ActionText(ActionOf(p))
    ensures ConstantName(p) == Upper(ScopeText(ScopeOf(p))) + "_" + Upper(ActionText(ActionOf(p)))
  {
    UpperWords();
  }

  lemma AdminShape(p: Permission)
    requires ScopeOf(p) == AdminScope
    ensures PermissionString(p) == ScopeText(ScopeOf(p)) + ":" + ActionText(ActionOf(p))
    ensures ConstantName(p) == Upper(ScopeText(ScopeOf(p))) + "_" + Upper(ActionText(ActionOf(p)))
  {
    UpperWords();
  }

  /** Each (scope, action) pair is declared exactly once: the constants and the pairs are in bijection. */
  lemma PairsDeclaredOnce(p: Permission, q: Permission)
    ensures PermissionOf(ScopeOf(p), ActionOf(p)) == p
    ensures ScopeOf(p) == ScopeOf(q) && ActionOf(p) == ActionOf(q) ==> p == q
  {
  }

  /** The position of the first occurrence of `c` in `s`, if any. */
  function IndexOf(s: string, c: char): (r: Option<nat>)
    ensures r.Some? ==> r.value < |s| && s[r.value] == c && c !in s[..r.value]
    ensures r.None? ==> c !in s
  {
    if |s| == 0 then None
    else if s[0] == c then Some(0)
    else match IndexOf(s[1..], c)
      case None => None
      case Some(k) => assert s[..k + 1] == [s[0]] + s[1..][..k]; Some(k + 1)
  }

  /** In `a + [c] + b` with no `c` inside `a`, the first `c` sits right after `a`. */
  lemma IndexOfAfterPrefix(a: string, c: char, b: string)
    requires c !in a
    ensures IndexOf(a + [c] + b, c) == Some(|a|)
  {
    var s := a + [c] + b;
    assert s[|a|] == c;
    assert forall i :: 0 <= i < |a| ==> s[i] == a[i];
    assert forall k :: |a| < k <= |s| ==> s[..k][|a|] == c;
  }

  /** A string with exactly one colon before which no colon occurs splits at that colon in one way only. */
  lemma SplitAtColon(a: string, b: string, c: string, d: string)
    requires ':' !in a && ':' !in c
    requires a + ":" + b == c + ":" + d
    ensures a == c && b == d
  {
    var s := a + ":" + b;
    IndexOfAfterPrefix(a, ':', b);
    IndexOfAfterPrefix(c, ':', d);
    assert |a| == |c|;
    assert a == s[..|a|] && c == s[..|c|];
    assert b == s[|a| + 1..] && d == s[|c| + 1..];
  }

  /** Distinct scopes and distinct actions are written with distinct words. */
  lemma WordsDistinct(p: Permission, q: Permission)
    ensures ScopeText(ScopeOf(p)) == ScopeText(ScopeOf(q)) ==> ScopeOf(p) == ScopeOf(q)
    ensures ActionText(ActionOf(p)) == ActionText(ActionOf(q)) ==> ActionOf(p) == ActionOf(q)
    ensures ':' !in ScopeText(ScopeOf(p))
  {
  }

  /** `getPermission` is injective: distinct constants carry distinct authority strings. */
  lemma PermissionStringInjective(p: Permission, q: Permission)
    requires PermissionString(p) == PermissionString(q)
    ensures p == q
  {
    DeclarationShape(p);
    DeclarationShape(q);
    WordsDistinct(p, q);
    WordsDistinct(q, p);
    SplitAtColon(ScopeText(ScopeOf(p)), ActionText(ActionOf(p)), ScopeText(ScopeOf(q)), ActionText(ActionOf(q)));
    PairsDeclaredOnce(p, q);
  }
}

=== FILE: site_service.dfy ===
/** Sites and their managers: creating and updating a site with its site-manager and
    procurement-manager slots, deleting it, and allocating users to it.

    The two slots live on the site; the user side of each (the site a user manages) and a site's user
    list are derived, so keeping them in step is a matter of the `site` column of each user. */
module SiteService {
  import opened Wrappers
  import opened Tables
  import opened Roles
  import opened Entities

  /** A site as the client sends it. */
  datatype SiteRequest = SiteRequest(
    siteId: Option<Id>,
    siteName: Option<string>,
    location: Option<string>,
    startDate: Option<Date>,
    contactNumber: Option<string>,
    siteManagerId: Option<Id>,
    procurementManagerId: Option<Id>)

  // ---------------------------------------------------------------------------------------------
  // Site invariants

  /** Each occupied slot names a stored user of the matching role. */
  predicate SlotRoles(s: Store) {
    forall site :: site in s.sites ==>
      && (s.sites[site].siteManager.Some? ==>
            s.sites[site].siteManager.value in s.users && s.users[s.sites[site].siteManager.value].role == SiteManager)
      && (s.sites[site].procurementManager.Some? ==>
            s.sites[site].procurementManager.value in s.users &&
            s.users[s.sites[site].procurementManager.value].role == ProcurementManager)
  }

  /** Each site manager is allocated to the site they manage. */
  predicate SiteManagersAllocated(s: Store) {
    forall site :: site in s.sites && s.sites[site].siteManager.Some? && s.sites[site].siteManager.value in s.users ==>
      s.users[s.sites[site].siteManager.value].site == Some(site)
  }

  /** Each procurement manager is allocated to the site they serve. */
  predicate ProcurementManagersAllocated(s: Store) {
    forall site :: site in s.sites && s.sites[site].procurementManager.Some? &&
                   s.sites[site].procurementManager.value in s.users ==>
      s.users[s.sites[site].procurementManager.value].site == Some(site)
  }

  predicate ManagersAllocated(s: Store) {
    SiteManagersAllocated(s) && ProcurementManagersAllocated(s)
  }

  /** The invariant the site operations keep. */
  predicate SitesConsistent(s: Store) {
    Wf(s) && SlotRoles(s) && ManagersAllocated(s) && ManagersUnique(s)
  }

  // ---------------------------------------------------------------------------------------------
  // Candidate checks

  /** `siteManagerExceptions`: a site-manager candidate must be given, stored, of role SITE_MANAGER and
      not already managing a site, checked in that order. */
  function SiteManagerCheck(s: Store, id: Option<Id>): (r: Result<Id>)
    ensures id.None? ==> r == Err(BadRequest)
    ensures id.Some? && id.value !in s.users ==> r == Err(NotFound)
    ensures id.Some? && id.value in s.users && s.users[id.value].role != SiteManager ==> r == Err(BadRequest)
    ensures id.Some? && id.value in s.users && s.users[id.value].role == SiteManager && ManagesSite(s, id.value) ==>
              r == Err(Conflict)
    ensures r.Ok? <==> id.Some? && id.value in s.users && s.users[id.value].role == SiteManager && !ManagesSite(s, id.value)
    ensures r.Ok? ==> r.value == id.value
  {
    if id.None? then Err(BadRequest)
    else if id.value !in s.users then Err(NotFound)
    else
      RoleNameShape(s.users[id.value].role, SiteManager);
      if RoleName(s.users[id.value].role) != "SITE_MANAGER" then Err(BadRequest)
      else if ManagesSite(s, id.value) then Err(Conflict)
      else Ok(id.value)
  }

  /** `procurementManagerExceptions`: the same checks for the PROCUREMENT_MANAGER role, without the check
      for a missing id. */
  function ProcurementManagerCheck(s: Store, id: Id): (r: Result<Id>)
    ensures id !in s.users ==> r == Err(NotFound)
    ensures id in s.users && s.users[id].role != ProcurementManager ==> r == Err(BadRequest)
    ensures id in s.users && s.users[id].role == ProcurementManager && ProcuresForSite(s, id) ==> r == Err(Conflict)
    ensures r.Ok? <==> id in s.users && s.users[id].role == ProcurementManager && !ProcuresForSite(s, id)
    ensures r.Ok? ==> r.value == id
  {
    if id !in s.users then Err(NotFound)
    else
      RoleNameShape(s.users[id].role, ProcurementManager);
      if RoleName(s.users[id].role) != "PROCUREMENT_MANAGER" then Err(BadRequest)
      else if ProcuresForSite(s, id) then Err(Conflict)
      else Ok(id)
  }

  /** The procurement manager for a request: none when no id is given, else the checked candidate. */
  function OptionalProcurementManager(s: Store, id: Option<Id>): (r: Result<Option<Id>>)
    ensures id.None? ==> r == Ok(None)
    ensures id.Some? ==> (r.Ok? <==> ProcurementManagerCheck(s, id.value).Ok?)
    ensures id.Some? && r.Err? ==> r.error == ProcurementManagerCheck(s, id.value).error
    ensures r.Ok? ==> r.value == id
  {
    if id.None? then Ok(None)
    else
      match ProcurementManagerCheck(s, id.value)
      case Err(e) => Err(e)
      case Ok(pm) => Ok(Some(pm))
  }

  // ---------------------------------------------------------------------------------------------
  // Back references

  /** Allocates user `u` to `site` (or to none). */
  function SetUserSite(s: Store, u: Id, site: Option<Id>): Store
    requires u in s.users
  {
    s.(users := s.users[u := s.users[u].(site := site)])
  }

  /** `updateUserRef`: stores the site, then allocates its site manager and its procurement manager to it. */
  function UpdateUserRef(s: Store, siteId: Id, site: Site): (r: Result<Store>)
    requires site.siteManager.Some? && site.siteManager.value in s.users
    ensures r.Err? <==> site.procurementManager.Some? && site.procurementManager.value !in s.users
    ensures r.Err? ==> r.error == InternalServer
    ensures r.Ok? ==> r.value.sites == s.sites[siteId := site] && r.value.users.Keys == s.users.Keys
    ensures r.Ok? ==> r.value.users[site.siteManager.value].site == Some(siteId)
    ensures r.Ok? && site.procurementManager.Some? ==> r.value.users[site.procurementManager.value].site == Some(siteId)
    ensures r.Ok? ==> forall u :: u in s.users && Some(u) != site.siteManager && Some(u) != site.procurementManager ==>
                        r.value.users[u] == s.users[u]
    ensures r.Ok? ==> forall u :: u in s.users ==>
                        r.value.users[u] == s.users[u].(site := r.value.users[u].site)
    ensures r.Ok? ==> r.value == s.(sites := r.value.sites, users := r.value.users)
  {
    var s1 := SetUserSite(s.(sites := s.sites[siteId := site]), site.siteManager.value, Some(siteId));
    if site.procurementManager.None? then Ok(s1)
    else if site.procurementManager.value !in s1.users then Err(InternalServer)
    else Ok(SetUserSite(s1, site.procurementManager.value, Some(siteId)))
  }

  // ---------------------------------------------------------------------------------------------
  // Creating a site

  /** `add`: a new site under the next site id with a checked site manager and, when an id is given, a
      checked procurement manager, both allocated to the new site. The request's names are required
      by the request validation that runs before the service. */
  function AddSite(s: Store, req: SiteRequest): (r: Result<Store>)
    requires req.siteName.Some? && req.location.Some? && req.contactNumber.Some?
    ensures SiteManagerCheck(s, req.siteManagerId).Err? ==> r == Err(SiteManagerCheck(s, req.siteManagerId).error)
    ensures SiteManagerCheck(s, req.siteManagerId).Ok? && OptionalProcurementManager(s, req.procurementManagerId).Err? ==>
              r == Err(OptionalProcurementManager(s, req.procurementManagerId).error)
    ensures r.Ok? <==> SiteManagerCheck(s, req.siteManagerId).Ok? && OptionalProcurementManager(s, req.procurementManagerId).Ok?
    ensures r.Ok? ==> r.value.nextSite == s.nextSite + 1 && r.value.sites.Keys == s.sites.Keys + {s.nextSite}
    ensures r.Ok? ==> var site := r.value.sites[s.nextSite];
              && site.siteName == req.siteName.value && site.location == req.location.value
              && site.startDate == req.startDate && site.contactNumber == req.contactNumber.value
              && site.siteManager == req.siteManagerId && site.procurementManager == req.procurementManagerId
    ensures r.Ok? ==> req.siteManagerId.Some? && req.siteManagerId.value in r.value.users &&
                      r.value.users[req.siteManagerId.value].site == Some(s.nextSite)
    ensures r.Ok? && req.procurementManagerId.Some? ==>
              req.procurementManagerId.value in r.value.users &&
              r.value.users[req.procurementManagerId.value].site == Some(s.nextSite)
  {
    match SiteManagerCheck(s, req.siteManagerId)
    case Err(e) => Err(e)
    case Ok(sm) =>
      match OptionalProcurementManager(s, req.procurementManagerId)
      case Err(e) => Err(e)
      case Ok(pm) =>
        var site := Site(req.siteName.value, req.location.value, req.startDate, req.contactNumber.value, Some(sm), pm);
        UpdateUserRef(s.(nextSite := s.nextSite + 1), s.nextSite, site)
  }

  /** The site row `add` stores for a request whose checks passed. */
  function NewSite(req: SiteRequest): Site
    requires req.siteName.Some? && req.location.Some? && req.contactNumber.Some?
  {
    Site(req.siteName.value, req.location.value, req.startDate, req.contactNumber.value,
         req.siteManagerId, req.procurementManagerId)
  }

  /** A successful `add` is `updateUserRef` of the new row under the next site id, after both
      candidate checks passed. */
  lemma AddSiteAttaches(s: Store, req: SiteRequest)
    requires req.siteName.Some? && req.location.Some? && req.contactNumber.Some?
    requires AddSite(s, req).Ok?
    ensures AddSite(s, req).value == UpdateUserRef(s.(nextSite := s.nextSite + 1), s.nextSite, NewSite(req)).value
    ensures SiteManagerCheck(s, req.siteManagerId).Ok?
    ensures req.procurementManagerId.Some? ==> ProcurementManagerCheck(s, req.procurementManagerId.value).Ok?
  {
  }

  /** The new row is attachable to the store with its site counter advanced. */
  lemma NewSiteAttachable(s: Store, req: SiteRequest)
    requires req.siteName.Some? && req.location.Some? && req.contactNumber.Some?
    requires SitesConsistent(s) && SiteManagerCheck(s, req.siteManagerId).Ok?
    requires req.procurementManagerId.Some? ==> ProcurementManagerCheck(s, req.procurementManagerId.value).Ok?
    ensures Attachable(s.(nextSite := s.nextSite + 1), s.nextSite, NewSite(req))
  {
    var b := s.(nextSite := s.nextSite + 1);
    BumpKeepsChecks(s, b);
    assert Wf(b);
  }

  /** Creating a site keeps the site invariant: in particular no user comes to manage two sites, and
      the new managers are allocated to the new site. */
  lemma AddSiteKeepsConsistent(s: Store, req: SiteRequest)
    requires req.siteName.Some? && req.location.Some? && req.contactNumber.Some?
    requires SitesConsistent(s) && AddSite(s, req).Ok?
    ensures SitesConsistent(AddSite(s, req).value)
  {
    AddSiteAttaches(s, req);
    NewSiteAttachable(s, req);
    AttachKeepsConsistent(s.(nextSite := s.nextSite + 1), s.nextSite, NewSite(req));
  }

  /** The candidate checks only read the user and site tables. */
  lemma BumpKeepsChecks(s: Store, b: Store)
    requires b.users == s.users && b.sites == s.sites
    ensures forall id :: SiteManagerCheck(b, id) == SiteManagerCheck(s, id)
    ensures forall id :: ProcurementManagerCheck(b, id) == ProcurementManagerCheck(s, id)
  {
    assert forall u :: ManagesSite(b, u) == ManagesSite(s, u);
    assert forall u :: ProcuresForSite(b, u) == ProcuresForSite(s, u);
  }

  // ---------------------------------------------------------------------------------------------
  // Updating a site

  /** The first half of `updateSite`: the site's current site manager and procurement manager are
      deallocated and both slots emptied. A slot naming a user that no longer exists fails with an
      internal server error. */
  function Detach(s: Store, siteId: Id): (r: Result<Store>)
    requires siteId in s.sites
    ensures r.Err? ==> r.error == InternalServer
    ensures r.Err? <==> (s.sites[siteId].siteManager.Some? && s.sites[siteId].siteManager.value !in s.users) ||
                        (s.sites[siteId].procurementManager.Some? && s.sites[siteId].procurementManager.value !in s.users)
    ensures r.Ok? ==> r.value.sites == s.sites[siteId := s.sites[siteId].(siteManager := None, procurementManager := None)]
    ensures r.Ok? ==> r.value.users.Keys == s.users.Keys
    ensures r.Ok? ==> forall u :: u in s.users ==>
              r.value.users[u] ==
                if Some(u) == s.sites[siteId].siteManager || Some(u) == s.sites[siteId].procurementManager
                then s.users[u].(site := None) else s.users[u]
    ensures r.Ok? ==> forall u :: u in s.users ==> r.value.users[u] == s.users[u].(site := r.value.users[u].site)
    ensures r.Ok? ==> r.value == s.(sites := r.value.sites, users := r.value.users)
  {
    var site := s.sites[siteId];
    var r1: Result<Store> :=
      if site.siteManager.None? then Ok(s)
      else if site.siteManager.value !in s.users then Err(InternalServer)
      else Ok(SetUserSite(s, site.siteManager.value, None).(sites := s.sites[siteId := site.(siteManager := None)]));
    match r1
    case Err(e) => Err(e)
    case Ok(s1) =>
      var site1 := s1.sites[siteId];
      if site1.procurementManager.None? then Ok(s1)
      else if site1.procurementManager.value !in s1.users then Err(InternalServer)
      else Ok(SetUserSite(s1, site1.procurementManager.value, None).(sites := s1.sites[siteId := site1.(procurementManager := None)]))
  }

  /** The site's fields after an update: each of name, location, start date and contact number is
      replaced only when the request supplies it. */
  function MergeFields(site: Site, req: SiteRequest): (site': Site)
    ensures site'.siteName == (if req.siteName.Some? then req.siteName.value else site.siteName)
    ensures site'.location == (if req.location.Some? then req.location.value else site.location)
    ensures site'.startDate == (if req.startDate.Some? then req.startDate else site.startDate)
    ensures site'.contactNumber == (if req.contactNumber.Some? then req.contactNumber.value else site.contactNumber)
    ensures site'.siteManager == site.siteManager && site'.procurementManager == site.procurementManager
  {
    var a := if req.siteName.Some? then site.(siteName := req.siteName.value) else site;
    var b := if req.location.Some? then a.(location := req.location.value) else a;
    var c := if req.startDate.Some? then b.(startDate := req.startDate) else b;
    if req.contactNumber.Some? then c.(contactNumber := req.contactNumber.value) else c
  }

  /** Merging the request's fields neither reads nor writes the two manager slots. */
  lemma MergeFieldsKeepsSlots(site: Site, req: SiteRequest, sm: Option<Id>, pm: Option<Id>)
    ensures MergeFields(site.(siteManager := sm, procurementManager := pm), req) ==
            MergeFields(site, req).(siteManager := sm, procurementManager := pm)
  {
  }

  /** The checks `updateSite` makes before touching anything: the site exists, and the named site
      manager is given, stored and of role SITE_MANAGER. */
  predicate UpdateRequestValid(s: Store, req: SiteRequest) {
    && req.siteId.Some? && req.siteId.value in s.sites
    && req.siteManagerId.Some? && req.siteManagerId.value in s.users
    && s.users[req.siteManagerId.value].role == SiteManager
  }

  /** `updateSite`. Every error leaves the store as it was (the call is treated as one transaction).
      After the first checks the current managers are detached; the candidate checks then run against
      the detached store, so the site's own managers may be named again. */
  function UpdateSite(s: Store, req: SiteRequest): (r: Result<Store>)
    ensures req.siteId.None? ==> r == Err(InternalServer)
    ensures req.siteId.Some? && req.siteId.value !in s.sites ==> r == Err(NotFound)
    ensures req.siteId.Some? && req.siteId.value in s.sites && req.siteManagerId.None? ==> r == Err(BadRequest)
    ensures req.siteId.Some? && req.siteId.value in s.sites && req.siteManagerId.Some? && req.siteManagerId.value !in s.users ==>
              r == Err(NotFound)
    ensures (req.siteId.Some? && req.siteId.value in s.sites && req.siteManagerId.Some? && req.siteManagerId.value in s.users &&
             s.users[req.siteManagerId.value].role != SiteManager) ==> r == Err(BadRequest)
    ensures r.Ok? ==> req.siteId.Some? && req.siteId.value in s.sites && req.siteManagerId.Some? &&
                      r.value.sites.Keys == s.sites.Keys && r.value.users.Keys == s.users.Keys
    ensures r.Ok? ==> var site, site' := s.sites[req.siteId.value], r.value.sites[req.siteId.value];
              && site' == MergeFields(site, req).(siteManager := req.siteManagerId, procurementManager := req.procurementManagerId)
    ensures r.Ok? ==> req.siteManagerId.value in r.value.users && r.value.users[req.siteManagerId.value].site == req.siteId
    ensures r.Ok? && req.procurementManagerId.Some? ==>
              req.procurementManagerId.value in r.value.users &&
              r.value.users[req.procurementManagerId.value].site == req.siteId
    ensures r.Ok? ==> forall a :: a in s.sites && a != req.siteId.value ==> r.value.sites[a] == s.sites[a]
    ensures UpdateRequestValid(s, req) && Detach(s, req.siteId.value).Err? ==> r == Err(InternalServer)
    ensures UpdateRequestValid(s, req) && Detach(s, req.siteId.value).Ok? ==>
              var d := Detach(s, req.siteId.value).value;
              && (SiteManagerCheck(d, req.siteManagerId).Err? ==> r == Err(SiteManagerCheck(d, req.siteManagerId).error))
              && (SiteManagerCheck(d, req.siteManagerId).Ok? && OptionalProcurementManager(d, req.procurementManagerId).Err? ==>
                    r == Err(OptionalProcurementManager(d, req.procurementManagerId).error))
              && (r.Ok? <==> SiteManagerCheck(d, req.siteManagerId).Ok? && OptionalProcurementManager(d, req.procurementManagerId).Ok?)
    ensures r.Ok? ==> UpdateRequestValid(s, req) && Detach(s, req.siteId.value).Ok?
    ensures r.Ok? ==> r.value == s.(sites := r.value.sites, users := r.value.users)
  {
    if req.siteId.None? then Err(InternalServer)
    else if req.siteId.value !in s.sites then Err(NotFound)
    else if req.siteManagerId.None? then Err(BadRequest)
    else if req.siteManagerId.value !in s.users then Err(NotFound)
    else
      RoleNameShape(s.users[req.siteManagerId.value].role, SiteManager);
      if RoleName(s.users[req.siteManagerId.value].role) != "SITE_MANAGER" then Err(BadRequest)
      else
        match Detach(s, req.siteId.value)
        case Err(e) => Err(e)
        case Ok(d) =>
          MergeFieldsKeepsSlots(s.sites[req.siteId.value], req, None, None);
          Reattach(d, req.siteId.value, req)
  }

  /** The second half of `updateSite`, on the store with the site's managers detached: the candidate
      checks, then the merged row is stored and its new managers allocated to it. */
  function Reattach(d: Store, siteId: Id, req: SiteRequest): (r: Result<Store>)
    requires siteId in d.sites
    ensures SiteManagerCheck(d, req.siteManagerId).Err? ==> r == Err(SiteManagerCheck(d, req.siteManagerId).error)
    ensures SiteManagerCheck(d, req.siteManagerId).Ok? && OptionalProcurementManager(d, req.procurementManagerId).Err? ==>
              r == Err(OptionalProcurementManager(d, req.procurementManagerId).error)
    ensures r.Ok? <==> SiteManagerCheck(d, req.siteManagerId).Ok? && OptionalProcurementManager(d, req.procurementManagerId).Ok?
    ensures r.Ok? ==>
              r.value.sites == d.sites[siteId := MergeFields(d.sites[siteId], req).(siteManager := req.siteManagerId,
                                                                                     procurementManager := req.procurementManagerId)]
    ensures r.Ok? ==> r.value.users.Keys == d.users.Keys
    ensures r.Ok? ==> req.siteManagerId.value in r.value.users && r.value.users[req.siteManagerId.value].site == Some(siteId)
    ensures r.Ok? && req.procurementManagerId.Some? ==>
              req.procurementManagerId.value in r.value.users &&
              r.value.users[req.procurementManagerId.value].site == Some(siteId)
    ensures r.Ok? ==> forall u :: u in d.users && Some(u) != req.siteManagerId && Some(u) != req.procurementManagerId ==>
                        r.value.users[u] == d.users[u]
    ensures r.Ok? ==> forall u :: u in d.users ==> r.value.users[u] == d.users[u].(site := r.value.users[u].site)
    ensures r.Ok? ==> r.value == d.(sites := r.value.sites, users := r.value.users)
  {
    match SiteManagerCheck(d, req.siteManagerId)
    case Err(e) => Err(e)
    case Ok(sm) =>
      match OptionalProcurementManager(d, req.procurementManagerId)
      case Err(e) => Err(e)
      case Ok(pm) =>
        UpdateUserRef(d, siteId, MergeFields(d.sites[siteId], req).(siteManager := Some(sm), procurementManager := pm))
  }

  /** A successful update changes no user's record beyond the site they are allocated to. */
  lemma UpdateSiteTouchesOnlyAllocations(s: Store, req: SiteRequest)
    requires UpdateSite(s, req).Ok?
    ensures forall u :: u in s.users ==>
              UpdateSite(s, req).value.users[u] == s.users[u].(site := UpdateSite(s, req).value.users[u].site)
  {
    var s' := UpdateSite(s, req).value;
    var d := Detach(s, req.siteId.value).value;
    assert s' == Reattach(d, req.siteId.value, req).value;
    forall u | u in s.users
      ensures s'.users[u] == s.users[u].(site := s'.users[u].site)
    {
      assert s'.users[u] == d.users[u].(site := s'.users[u].site);
    }
  }

  /** A successful update deallocates the site's former managers unless they are named again, and leaves
      every other user as they were. */
  lemma UpdateSiteReleasesOldManagers(s: Store, req: SiteRequest)
    requires UpdateSite(s, req).Ok?
    ensures var old_, s' := s.sites[req.siteId.value], UpdateSite(s, req).value;
      forall u :: u in s.users && Some(u) != req.siteManagerId && Some(u) != req.procurementManagerId ==>
        s'.users[u] ==
          if Some(u) == old_.siteManager || Some(u) == old_.procurementManager
          then s.users[u].(site := None) else s.users[u]
  {
    var old_, s' := s.sites[req.siteId.value], UpdateSite(s, req).value;
    var d := Detach(s, req.siteId.value).value;
    assert s' == Reattach(d, req.siteId.value, req).value;
    forall u | u in s.users && Some(u) != req.siteManagerId && Some(u) != req.procurementManagerId
      ensures s'.users[u] == if Some(u) == old_.siteManager || Some(u) == old_.procurementManager
                             then s.users[u].(site := None) else s.users[u]
    {
      assert s'.users[u] == d.users[u];
    }
  }

  /** Because the slots are emptied before the candidate is checked, a site's current manager can be
      named again: with a consistent store, an update that keeps the manager and names no procurement
      manager succeeds. */
  lemma ReassignCurrentManager(s: Store, req: SiteRequest)
    requires SitesConsistent(s)
    requires req.siteId.Some? && req.siteId.value in s.sites
    requires req.siteManagerId.Some? && s.sites[req.siteId.value].siteManager == req.siteManagerId
    requires req.procurementManagerId.None?
    ensures UpdateSite(s, req).Ok?
  {
    var siteId := req.siteId.value;
    var d := Detach(s, siteId).value;
    var m := req.siteManagerId.value;
    assert !ManagesSite(d, m);
  }

  /** Naming a user who manages another site fails with Conflict. */
  lemma UpdateSiteRejectsOtherManager(s: Store, req: SiteRequest, other: Id)
    requires SitesConsistent(s)
    requires req.siteId.Some? && req.siteId.value in s.sites && other in s.sites && other != req.siteId.value
    requires req.siteManagerId.Some? && s.sites[other].siteManager == req.siteManagerId
    ensures UpdateSite(s, req) == Err(Conflict)
  {
    var d := Detach(s, req.siteId.value).value;
    assert d.sites[other] == s.sites[other];
    assert ManagesSite(d, req.siteManagerId.value);
  }

  /** An update keeps the site invariant. */
  lemma UpdateSiteKeepsConsistent(s: Store, req: SiteRequest)
    requires SitesConsistent(s) && UpdateSite(s, req).Ok?
    ensures SitesConsistent(UpdateSite(s, req).value)
  {
    var siteId := req.siteId.value;
    DetachKeepsConsistent(s, siteId);
    var d := Detach(s, siteId).value;
    var site := MergeFields(d.sites[siteId], req).(siteManager := req.siteManagerId, procurementManager := req.procurementManagerId);
    assert UpdateSite(s, req) == UpdateUserRef(d, siteId, site);
    AttachKeepsConsistent(d, siteId, site);
  }

  /** With a consistent store, detaching a site's managers cannot fail, leaves both slots empty, and keeps
      the store consistent. */
  lemma DetachKeepsConsistent(s: Store, siteId: Id)
    requires SitesConsistent(s) && siteId in s.sites
    ensures Detach(s, siteId).Ok?
    ensures SitesConsistent(Detach(s, siteId).value)
  {
    DetachKeepsRoles(s, siteId);
    DetachKeepsUnique(s, siteId);
    DetachKeepsAllocations(s, siteId);
  }

  /** Detaching keeps every occupied slot pointing at a user of the slot's role. */
  lemma DetachKeepsRoles(s: Store, siteId: Id)
    requires SitesConsistent(s) && siteId in s.sites
    ensures Detach(s, siteId).Ok?
    ensures var d := Detach(s, siteId).value; Wf(d) && SlotRoles(d)
  {
    DetachKeepsOtherSites(s, siteId);
    var d := Detach(s, siteId).value;
    forall a | a in d.sites
      ensures d.sites[a].siteManager.Some? ==>
                d.sites[a].siteManager.value in d.users && d.users[d.sites[a].siteManager.value].role == SiteManager
      ensures d.sites[a].procurementManager.Some? ==>
                d.sites[a].procurementManager.value in d.users &&
                d.users[d.sites[a].procurementManager.value].role == ProcurementManager
    {
    }
  }

  /** Detaching keeps every user in at most one slot of each kind. */
  lemma DetachKeepsUnique(s: Store, siteId: Id)
    requires SitesConsistent(s) && siteId in s.sites
    ensures Detach(s, siteId).Ok?
    ensures ManagersUnique(Detach(s, siteId).value)
  {
    var d := Detach(s, siteId).value;
    forall a, b | a in d.sites && b in d.sites && d.sites[a].siteManager.Some? &&
                  d.sites[a].siteManager == d.sites[b].siteManager
      ensures a == b
    {
      assert a != siteId && b != siteId;
      assert s.sites[a].siteManager == s.sites[b].siteManager;
    }
    forall a, b | a in d.sites && b in d.sites && d.sites[a].procurementManager.Some? &&
                  d.sites[a].procurementManager == d.sites[b].procurementManager
      ensures a == b
    {
      assert a != siteId && b != siteId;
      assert s.sites[a].procurementManager == s.sites[b].procurementManager;
    }
  }

  /** Detaching keeps every remaining manager allocated to the site they manage. */
  lemma DetachKeepsAllocations(s: Store, siteId: Id)
    requires SitesConsistent(s) && siteId in s.sites
    ensures Detach(s, siteId).Ok?
    ensures ManagersAllocated(Detach(s, siteId).value)
  {
    DetachKeepsOtherSites(s, siteId);
    var d := Detach(s, siteId).value;
    assert SiteManagersAllocated(d);
  }

  /** Detaching one site's managers leaves every other site, and the users managing it, as they were. */
  lemma DetachKeepsOtherSites(s: Store, siteId: Id)
    requires SitesConsistent(s) && siteId in s.sites
    ensures Detach(s, siteId).Ok?
    ensures forall a :: a in s.sites && a != siteId ==>
              && Detach(s, siteId).value.sites[a] == s.sites[a]
              && (s.sites[a].siteManager.Some? ==>
                    Detach(s, siteId).value.users[s.sites[a].siteManager.value] == s.users[s.sites[a].siteManager.value])
              && (s.sites[a].procurementManager.Some? ==>
                    Detach(s, siteId).value.users[s.sites[a].procurementManager.value] ==
                    s.users[s.sites[a].procurementManager.value])
  {
    var d := Detach(s, siteId).value;
    var old_ := s.sites[siteId];
    forall a | a in s.sites && a != siteId
      ensures d.sites[a] == s.sites[a]
      ensures s.sites[a].siteManager.Some? ==> d.users[s.sites[a].siteManager.value] == s.users[s.sites[a].siteManager.value]
      ensures s.sites[a].procurementManager.Some? ==>
                d.users[s.sites[a].procurementManager.value] == s.users[s.sites[a].procurementManager.value]
    {
      if s.sites[a].siteManager.Some? {
        assert s.sites[a].siteManager != old_.siteManager;
        assert s.sites[a].siteManager != old_.procurementManager;
      }
      if s.sites[a].procurementManager.Some? {
        assert s.sites[a].procurementManager != old_.siteManager;
        assert s.sites[a].procurementManager != old_.procurementManager;
      }
    }
  }

  /** The conditions under which `updateUserRef` attaches `site` under `siteId` to a consistent store:
      the slot is free, and its managers passed their candidate checks. */
  predicate Attachable(s: Store, siteId: Id, site: Site) {
    && SitesConsistent(s) && siteId < s.nextSite
    && (siteId in s.sites ==> s.sites[siteId].siteManager.None? && s.sites[siteId].procurementManager.None?)
    && site.siteManager.Some? && SiteManagerCheck(s, site.siteManager).Ok?
    && (site.procurementManager.Some? ==> ProcurementManagerCheck(s, site.procurementManager.value).Ok?)
  }

  /** Attaching a site whose managers passed their checks keeps the store consistent. */
  lemma AttachKeepsConsistent(s: Store, siteId: Id, site: Site)
    requires Attachable(s, siteId, site)
    ensures UpdateUserRef(s, siteId, site).Ok?
    ensures SitesConsistent(UpdateUserRef(s, siteId, site).value)
  {
    var s' := UpdateUserRef(s, siteId, site).value;
    AttachKeepsRoles(s, siteId, site);
    AttachKeepsUnique(s, siteId, site);
    AttachKeepsSiteManagers(s, siteId, site);
    AttachKeepsProcurementManagers(s, siteId, site);
  }

  lemma AttachKeepsRoles(s: Store, siteId: Id, site: Site)
    requires Attachable(s, siteId, site)
    ensures UpdateUserRef(s, siteId, site).Ok?
    ensures Wf(UpdateUserRef(s, siteId, site).value) && SlotRoles(UpdateUserRef(s, siteId, site).value)
  {
    var s' := UpdateUserRef(s, siteId, site).value;
    forall a | a in s'.sites
      ensures s'.sites[a].siteManager.Some? ==>
                s'.sites[a].siteManager.value in s'.users && s'.users[s'.sites[a].siteManager.value].role == SiteManager
      ensures s'.sites[a].procurementManager.Some? ==>
                s'.sites[a].procurementManager.value in s'.users &&
                s'.users[s'.sites[a].procurementManager.value].role == ProcurementManager
    {
      if a != siteId {
        assert s'.sites[a] == s.sites[a];
      }
    }
  }

  lemma AttachKeepsUnique(s: Store, siteId: Id, site: Site)
    requires Attachable(s, siteId, site)
    ensures UpdateUserRef(s, siteId, site).Ok?
    ensures ManagersUnique(UpdateUserRef(s, siteId, site).value)
  {
    var s' := UpdateUserRef(s, siteId, site).value;
    forall a, b | a in s'.sites && b in s'.sites && s'.sites[a].siteManager.Some? &&
                  s'.sites[a].siteManager == s'.sites[b].siteManager
      ensures a == b
    {
    }
    forall a, b | a in s'.sites && b in s'.sites && s'.sites[a].procurementManager.Some? &&
                  s'.sites[a].procurementManager == s'.sites[b].procurementManager
      ensures a == b
    {
    }
  }

  lemma AttachKeepsSiteManagers(s: Store, siteId: Id, site: Site)
    requires Attachable(s, siteId, site)
    ensures UpdateUserRef(s, siteId, site).Ok?
    ensures SiteManagersAllocated(UpdateUserRef(s, siteId, site).value)
  {
    var s' := UpdateUserRef(s, siteId, site).value;
    forall a | a in s'.sites && s'.sites[a].siteManager.Some? && s'.sites[a].siteManager.value in s'.users
      ensures s'.users[s'.sites[a].siteManager.value].site == Some(a)
    {
      if a != siteId {
        var m := s.sites[a].siteManager.value;
        assert s.users[m].role == SiteManager;
        assert Some(m) != site.procurementManager;
      }
    }
  }

  lemma AttachKeepsProcurementManagers(s: Store, siteId: Id, site: Site)
    requires Attachable(s, siteId, site)
    ensures UpdateUserRef(s, siteId, site).Ok?
    ensures ProcurementManagersAllocated(UpdateUserRef(s, siteId, site).value)
  {
    var s' := UpdateUserRef(s, siteId, site).value;
    forall a | a in s'.sites && s'.sites[a].procurementManager.Some? && s'.sites[a].procurementManager.value in s'.users
      ensures s'.users[s'.sites[a].procurementManager.value].site == Some(a)
    {
      if a != siteId {
        var p := s.sites[a].procurementManager.value;
        assert s.users[p].role == ProcurementManager;
        assert Some(p) != site.siteManager;
      }
    }
  }

  // ---------------------------------------------------------------------------------------------
  // Deleting a site and allocating users

  /** `deleteSite`: removes the site row. */
  function DeleteSite(s: Store, siteId: Id): (r: Result<Store>)
    ensures r.Err? <==> siteId !in s.sites
    ensures r.Err? ==> r.error == NotFound
    ensures r.Ok? ==> r.value.sites.Keys == s.sites.Keys - {siteId}
    ensures r.Ok? ==> forall a :: a in r.value.sites ==> r.value.sites[a] == s.sites[a]
    ensures r.Ok? ==> r.value == s.(sites := r.value.sites)
  {
    if siteId !in s.sites then Err(NotFound)
    else Ok(s.(sites := s.sites - {siteId}))
  }

  /** Deleting a site keeps the site invariant, and its former managers are free to be named for
      another site. */
  lemma DeleteSiteKeepsConsistent(s: Store, siteId: Id)
    requires SitesConsistent(s) && siteId in s.sites
    ensures DeleteSite(s, siteId).Ok?
    ensures SitesConsistent(DeleteSite(s, siteId).value)
    ensures s.sites[siteId].siteManager.Some? ==>
              SiteManagerCheck(DeleteSite(s, siteId).value, s.sites[siteId].siteManager).Ok?
    ensures s.sites[siteId].procurementManager.Some? ==>
              ProcurementManagerCheck(DeleteSite(s, siteId).value, s.sites[siteId].procurementManager.value).Ok?
  {
    var s' := DeleteSite(s, siteId).value;
    var old_ := s.sites[siteId];
    if old_.siteManager.Some? {
      assert !ManagesSite(s', old_.siteManager.value);
    }
    if old_.procurementManager.Some? {
      assert !ProcuresForSite(s', old_.procurementManager.value);
    }
  }

  /** `allocateSite`: allocates the user registered under `email` to the site, unless already allocated. */
  function AllocateSite(s: Store, siteId: Id, email: string): (r: Result<Store>)
    ensures siteId !in s.sites ==> r == Err(NotFound)
    ensures siteId in s.sites && UserByEmail(s, email).None? ==> r == Err(NotFound)
    ensures siteId in s.sites && UserByEmail(s, email).Some? && s.users[UserByEmail(s, email).value].site.Some? ==>
              r == Err(BadRequest)
    ensures siteId in s.sites && UserByEmail(s, email).Some? ==>
              (r.Ok? <==> s.users[UserByEmail(s, email).value].site.None?)
    ensures r.Err? ==> r.error == NotFound || r.error == BadRequest
    ensures r.Ok? ==> siteId in s.sites && UserByEmail(s, email).Some? &&
                      var u := UserByEmail(s, email).value;
                      r.value == s.(users := s.users[u := s.users[u].(site := Some(siteId))])
  {
    if siteId !in s.sites then Err(NotFound)
    else match UserByEmail(s, email)
      case None => Err(NotFound)
      case Some(u) =>
        if s.users[u].site.Some? then Err(BadRequest)
        else Ok(SetUserSite(s, u, Some(siteId)))
  }

  /** An allocation adds exactly that user to the site's user list, and keeps the site invariant. */
  lemma AllocateSiteEffect(s: Store, siteId: Id, email: string)
    requires SitesConsistent(s) && AllocateSite(s, siteId, email).Ok?
    ensures var u, s' := UserByEmail(s, email).value, AllocateSite(s, siteId, email).value;
      && (forall v :: v in UsersOfSite(s', siteId) <==> v in UsersOfSite(s, siteId) || v == u)
      && u !in UsersOfSite(s, siteId)
      && SitesConsistent(s')
  {
    var u := UserByEmail(s, email).value;
    var s' := AllocateSite(s, siteId, email).value;
    forall v ensures v in UsersOfSite(s', siteId) <==> v in UsersOfSite(s, siteId) || v == u {
      SelectMembership(s'.users, AllocatedTo(siteId), s'.nextUser, v);
      SelectMembership(s.users, AllocatedTo(siteId), s.nextUser, v);
    }
    SelectMembership(s.users, AllocatedTo(siteId), s.nextUser, u);
    forall a | a in s.sites
      ensures s.sites[a].siteManager != Some(u) && s.sites[a].procurementManager != Some(u)
    {
    }
  }

  /** `deAllocateSite` as the source writes it: the user's allocation is cleared unless the user has none
      or is the given site's manager; the user's site is never compared with the given site. A site
      without a manager is outside the source's handled cases. */
  function DeAllocateSiteAsWritten(s: Store, siteId: Id, email: string): (r: Result<Store>)
    requires siteId in s.sites ==> s.sites[siteId].siteManager.Some?
    ensures siteId !in s.sites ==> r == Err(NotFound)
    ensures siteId in s.sites && UserByEmail(s, email).None? ==> r == Err(NotFound)
    ensures siteId in s.sites && UserByEmail(s, email).Some? ==>
              var u := UserByEmail(s, email).value;
              (r.Ok? <==> s.users[u].site.Some? && s.sites[siteId].siteManager != Some(u))
    ensures r.Err? && siteId in s.sites && UserByEmail(s, email).Some? ==> r.error == BadRequest
    ensures r.Ok? ==> siteId in s.sites && UserByEmail(s, email).Some? &&
                      var u := UserByEmail(s, email).value;
                      r.value == s.(users := s.users[u := s.users[u].(site := None)])
  {
    if siteId !in s.sites then Err(NotFound)
    else match UserByEmail(s, email)
      case None => Err(NotFound)
      case Some(u) =>
        if s.users[u].site.None? then Err(BadRequest)
        else if s.sites[siteId].siteManager.value == u then Err(BadRequest)
        else Ok(SetUserSite(s, u, None))
  }

  /** The manager of site 0, deallocated through site 1, loses the allocation to the site they manage. */
  lemma DeAllocateSiteDetachesForeignManager()
    ensures var a := User("a", "a", "a@x.io", "0000000", "pw", SiteManager, true, Some(0));
      var b := User("b", "b", "b@x.io", "0000000", "pw", SiteManager, true, Some(1));
      var s := Store(map[0 := a, 1 := b],
                     map[0 := Site("s0", "l", None, "0", Some(0), None), 1 := Site("s1", "l", None, "0", Some(1), None)],
                     map[], map[], map[], map[], 2, 2, 0, 0, 0, 0);
      && SitesConsistent(s)
      && DeAllocateSiteAsWritten(s, 1, "a@x.io").Ok?
      && !SiteManagersAllocated(DeAllocateSiteAsWritten(s, 1, "a@x.io").value)
  {
    var a := User("a", "a", "a@x.io", "0000000", "pw", SiteManager, true, Some(0));
    var b := User("b", "b", "b@x.io", "0000000", "pw", SiteManager, true, Some(1));
    var s := Store(map[0 := a, 1 := b],
                   map[0 := Site("s0", "l", None, "0", Some(0), None), 1 := Site("s1", "l", None, "0", Some(1), None)],
                   map[], map[], map[], map[], 2, 2, 0, 0, 0, 0);
    assert s.users[0].email == "a@x.io";
    SelectMembership(s.users, HasEmail("a@x.io"), s.nextUser, 0);
    assert UserByEmail(s, "a@x.io") == Some(0);
  }

  /** `deAllocateSite` with the missing check added: a user allocated to a different site is rejected
      with BadRequest, like one allocated to none. */
  function DeAllocateSite(s: Store, siteId: Id, email: string): (r: Result<Store>)
    requires siteId in s.sites ==> s.sites[siteId].siteManager.Some?
    ensures siteId !in s.sites ==> r == Err(NotFound)
    ensures siteId in s.sites && UserByEmail(s, email).None? ==> r == Err(NotFound)
    ensures siteId in s.sites && UserByEmail(s, email).Some? ==>
              var u := UserByEmail(s, email).value;
              (r.Ok? <==> s.users[u].site == Some(siteId) && s.sites[siteId].siteManager != Some(u))
    ensures r.Err? && siteId in s.sites && UserByEmail(s, email).Some? ==> r.error == BadRequest
    ensures r.Ok? ==> var u := UserByEmail(s, email).value;
                      r.value == s.(users := s.users[u := s.users[u].(site := None)])
  {
    if siteId !in s.sites then Err(NotFound)
    else match UserByEmail(s, email)
      case None => Err(NotFound)
      case Some(u) =>
        if s.users[u].site.None? then Err(BadRequest)
        else if s.users[u].site != Some(siteId) then Err(BadRequest)
        else if s.sites[siteId].siteManager.value == u then Err(BadRequest)
        else Ok(SetUserSite(s, u, None))
  }

  /** The corrected deallocation removes exactly that user from the site's user list and never
      deallocates a site manager from the site they manage. (A site's procurement manager is not
      protected by either version.) */
  lemma DeAllocateSiteKeepsManagers(s: Store, siteId: Id, email: string)
    requires siteId in s.sites ==> s.sites[siteId].siteManager.Some?
    requires SitesConsistent(s) && DeAllocateSite(s, siteId, email).Ok?
    ensures var u, s' := UserByEmail(s, email).value, DeAllocateSite(s, siteId, email).value;
      && Wf(s') && SlotRoles(s') && ManagersUnique(s') && SiteManagersAllocated(s')
      && (s.sites[siteId].procurementManager != Some(u) ==> ProcurementManagersAllocated(s'))
      && (forall v :: v in UsersOfSite(s', siteId) <==> v in UsersOfSite(s, siteId) && v != u)
  {
    var u := UserByEmail(s, email).value;
    var s' := DeAllocateSite(s, siteId, email).value;
    forall v ensures v in UsersOfSite(s', siteId) <==> v in UsersOfSite(s, siteId) && v != u {
      SelectMembership(s'.users, AllocatedTo(siteId), s'.nextUser, v);
      SelectMembership(s.users, AllocatedTo(siteId), s.nextUser, v);
    }
    forall a | a in s.sites
      ensures s.sites[a].siteManager != Some(u)
      ensures s.sites[a].procurementManager != Some(u) || a == siteId
    {
    }
  }
}

=== FILE: tables.dfy ===
/** Keyed tables with generated ids, and the queries a repository answers over them. */
module Tables {
  import opened Wrappers

  /** The ids below `bound` that are keys of `m` whose record satisfies `p`, in ascending order.
      This is how the model answers a derived repository query (`findBySiteSiteId`, `findByEmail`, ...):
      every id an identity column hands out lies below the table's counter. The repository promises
      no order for such a query; ascending id order is the one the model fixes. */
  function Select<V>(m: map<nat, V>, p: V -> bool, bound: nat): (ids: seq<nat>)
    ensures forall i :: 0 <= i < |ids| ==> ids[i] < bound && ids[i] in m && p(m[ids[i]])
    ensures forall i, j :: 0 <= i < j < |ids| ==> ids[i] < ids[j]
    decreases bound
  {
    if bound == 0 then []
    else
      var below := Select(m, p, bound - 1);
      if bound - 1 in m && p(m[bound - 1]) then below + [bound - 1] else below
  }

  /** The first (lowest) id of a query result: a repository's `Optional` single-row lookup. */
  function First(ids: seq<nat>): (r: Option<nat>)
    ensures r.None? <==> |ids| == 0
    ensures r.Some? ==> r.value == ids[0]
  {
    if |ids| == 0 then None else Some(ids[0])
  }

  /** Every matching key below the bound is selected. */
  lemma {:induction false} SelectComplete<V>(m: map<nat, V>, p: V -> bool, bound: nat, x: nat)
    requires x < bound && x in m && p(m[x])
    ensures x in Select(m, p, bound)
  {
    if x < bound - 1 {
      SelectComplete(m, p, bound - 1, x);
    }
  }

  /** A query returns more than one id exactly when two distinct keys below the bound match. */
  lemma SelectMany<V>(m: map<nat, V>, p: V -> bool, bound: nat)
    ensures |Select(m, p, bound)| > 1 <==>
            exists i, j :: i < bound && j < bound && i in m && j in m && i != j && p(m[i]) && p(m[j])
  {
    var ids := Select(m, p, bound);
    if exists i, j :: i < bound && j < bound && i in m && j in m && i != j && p(m[i]) && p(m[j]) {
      var i, j :| i < bound && j < bound && i in m && j in m && i != j && p(m[i]) && p(m[j]);
      SelectMembership(m, p, bound, i);
      SelectMembership(m, p, bound, j);
      var ki :| 0 <= ki < |ids| && ids[ki] == i;
      var kj :| 0 <= kj < |ids| && ids[kj] == j;
      assert ki != kj;
    }
    if |ids| > 1 {
      assert ids[0] < bound && ids[1] < bound && ids[0] != ids[1];
    }
  }

  /** Membership in a query result, both directions. */
  lemma SelectMembership<V>(m: map<nat, V>, p: V -> bool, bound: nat, x: nat)
    ensures x in Select(m, p, bound) <==> x < bound && x in m && p(m[x])
  {
    if x < bound && x in m && p(m[x]) {
      SelectComplete(m, p, bound, x);
    }
  }

  /** A query result is empty exactly when no key below the bound matches. */
  lemma SelectEmpty<V>(m: map<nat, V>, p: V -> bool, bound: nat)
    ensures |Select(m, p, bound)| == 0 <==> forall x :: x in m && x < bound ==> !p(m[x])
  {
    if exists x :: x in m && x < bound && p(m[x]) {
      var x :| x in m && x < bound && p(m[x]);
      SelectComplete(m, p, bound, x);
    }
  }

  /** Two tables that agree on which keys below the bound match give the same query result. */
  lemma {:induction false} SelectAgree<V, W>(m: map<nat, V>, p: V -> bool, m': map<nat, W>, q: W -> bool, bound: nat)
    requires forall x: nat :: x < bound ==> (x in m && p(m[x]) <==> x in m' && q(m'[x]))
    ensures Select(m, p, bound) == Select(m', q, bound)
    decreases bound
  {
    if bound > 0 {
      SelectAgree(m, p, m', q, bound - 1);
    }
  }

  /** Storing a record under the next generated id appends that id to the result when it matches. */
  lemma SelectExtend<V>(m: map<nat, V>, p: V -> bool, bound: nat, v: V)
    ensures Select(m[bound := v], p, bound + 1) == Select(m, p, bound) + (if p(v) then [bound] else [])
  {
    SelectAgree(m[bound := v], p, m, p, bound);
  }

  /** Deleting a matching row shortens the result by exactly one. */
  lemma {:induction false} SelectRemove<V>(m: map<nat, V>, p: V -> bool, bound: nat, k: nat)
    requires k < bound && k in m && p(m[k])
    ensures |Select(m - {k}, p, bound)| == |Select(m, p, bound)| - 1
    decreases bound
  {
    if k == bound - 1 {
      SelectAgree(m - {k}, p, m, p, bound - 1);
    } else {
      SelectRemove(m, p, bound - 1, k);
    }
  }

  /** A query whose only match below the bound is `k` answers exactly `[k]`. */
  lemma {:induction false} SelectSingleton<V>(m: map<nat, V>, p: V -> bool, bound: nat, k: nat)
    requires k < bound && k in m && p(m[k])
    requires forall x: nat :: x < bound && x in m && p(m[x]) ==> x == k
    ensures Select(m, p, bound) == [k]
    decreases bound
  {
    if k == bound - 1 {
      SelectEmpty(m, p, bound - 1);
    } else {
      SelectSingleton(m, p, bound - 1, k);
    }
  }

  /** The keys below `bound` whose record satisfies `p`. */
  function Matching<V>(m: map<nat, V>, p: V -> bool, bound: nat): set<nat> {
    set x | x in m && x < bound && p(m[x])
  }

  /** A query result lists every matching key exactly once, so it is as long as the set of matches. */
  lemma {:induction false} SelectCount<V>(m: map<nat, V>, p: V -> bool, bound: nat)
    ensures |Select(m, p, bound)| == |Matching(m, p, bound)|
    decreases bound
  {
    if bound > 0 {
      SelectCount(m, p, bound - 1);
      if bound - 1 in m && p(m[bound - 1]) {
        assert Matching(m, p, bound) == Matching(m, p, bound - 1) + {bound - 1};
      } else {
        assert Matching(m, p, bound) == Matching(m, p, bound - 1);
      }
    } else {
      assert Matching(m, p, bound) == {};
    }
  }
}

=== FILE: user_role.dfy ===
/** The four roles, the permission set each is declared with, and the authorities a role grants. */
module Roles {
  import opened Permissions

  datatype Role = ProcurementManager | SiteManager | Supplier | Admin

  /** The role's identifier, as `name()` reports it; the services compare roles through it. */
  function RoleName(r: Role): string {
    match r
    case ProcurementManager => "PROCUREMENT_MANAGER"
    case SiteManager => "SITE_MANAGER"
    case Supplier => "SUPPLIER"
    case Admin => "ADMIN"
  }

  /** The permission scope named after the role. */
  function RoleScope(r: Role): Scope {
    match r
    case ProcurementManager => ProcurementManagerScope
    case SiteManager => SiteManagerScope
    case Supplier => SupplierScope
    case Admin => AdminScope
  }

  /** The permission set each role is declared with. */
  function PermissionsOf(r: Role): set<Permission> {
    match r
    case ProcurementManager =>
      {ProcurementManagerRead, ProcurementManagerUpdate, ProcurementManagerCreate, ProcurementManagerDelete}
    case SiteManager =>
      {SiteManagerRead, SiteManagerUpdate, SiteManagerCreate, SiteManagerDelete}
    case Supplier =>
      {SupplierRead, SupplierUpdate, SupplierCreate, SupplierDelete}
    case Admin =>
      {AdminRead, AdminUpdate, AdminCreate, AdminDelete,
       ProcurementManagerRead, ProcurementManagerUpdate, ProcurementManagerCreate, ProcurementManagerDelete,
       SiteManagerRead, SiteManagerUpdate, SiteManagerCreate, SiteManagerDelete,
       SupplierRead, SupplierUpdate, SupplierCreate, SupplierDelete}
  }

  /** The four permissions of the admin scope. */
  function AdminOnly(): set<Permission> {
    {AdminRead, AdminUpdate, AdminCreate, AdminDelete}
  }

  /** A role's name is its scope word upper-cased, and distinct roles have distinct names,
      so comparing `name()` strings is the same as comparing roles. */
  lemma RoleNameShape(r: Role, r': Role)
    ensures RoleName(r) == Upper(ScopeText(RoleScope(r)))
    ensures RoleName(r) == RoleName(r') <==> r == r'
  {
    UpperWords();
  }

  /** Each non-admin role holds exactly the four permissions of its own scope, and none of the admin scope. */
  lemma NonAdminHoldsOwnScope(r: Role)
    requires r != Admin
    ensures forall p :: p in PermissionsOf(r) <==> ScopeOf(p) == RoleScope(r)
    ensures forall p :: p in PermissionsOf(r) ==> ScopeOf(p) != AdminScope
    ensures |PermissionsOf(r)| == 4
  {
  }

  /** The admin's set is the union of the other three roles' sets and the four admin-only permissions. */
  lemma AdminIsUnion()
    ensures PermissionsOf(Admin) ==
            PermissionsOf(ProcurementManager) + PermissionsOf(SiteManager) + PermissionsOf(Supplier) + AdminOnly()
  {
  }

  /** The admin's set contains all sixteen constants, so it includes every role's set. */
  lemma AdminHoldsEverything(r: Role)
    ensures forall p :: p in PermissionsOf(Admin)
    ensures PermissionsOf(r) <= PermissionsOf(Admin)
    ensures |PermissionsOf(Admin)| == 16
  {
    forall p ensures p in PermissionsOf(Admin) {
      match p
      case ProcurementManagerRead =>
      case ProcurementManagerUpdate =>
      case ProcurementManagerCreate =>
      case ProcurementManagerDelete =>
      case SiteManagerRead =>
      case SiteManagerUpdate =>
      case SiteManagerCreate =>
      case SiteManagerDelete =>
      case SupplierRead =>
      case SupplierUpdate =>
      case SupplierCreate =>
      case SupplierDelete =>
      case AdminRead =>
      case AdminUpdate =>
      case AdminCreate =>
      case AdminDelete =>
    }
  }

  /** Distinct non-admin roles share no permission. */
  lemma NonAdminDisjoint(r: Role, r': Role)
    requires r != Admin && r' != Admin && r != r'
    ensures PermissionsOf(r) !! PermissionsOf(r')
  {
  }

  /** The authority strings of a set of permissions. */
  function AuthorityStrings(ps: set<Permission>): set<string> {
    set p | p in ps :: PermissionString(p)
  }

  /** Distinct permissions give distinct authority strings, so no two collapse into one. */
  lemma {:induction false} AuthorityStringsCount(ps: set<Permission>)
    ensures |AuthorityStrings(ps)| == |ps|
    decreases |ps|
  {
    if ps != {} {
      var p :| p in ps;
      var rest := ps - {p};
      AuthorityStringsCount(rest);
      assert AuthorityStrings(ps) == AuthorityStrings(rest) + {PermissionString(p)};
      if PermissionString(p) in AuthorityStrings(rest) {
        var q :| q in rest && PermissionString(q) == PermissionString(p);
        PermissionStringInjective(p, q);
      }
    }
  }

  /** The role authority `"ROLE_" + name()` is never a permission string, whose first letter is lower case. */
  lemma RoleAuthorityIsNotAPermission(r: Role, p: Permission)
    ensures PermissionString(p) != "ROLE_" + RoleName(r)
  {
    DeclarationShape(p);
    assert ("ROLE_" + RoleName(r))[0] == 'R';
    assert PermissionString(p)[0] == ScopeText(ScopeOf(p))[0];
  }

  /** `getAuthorities`: the role's permission strings plus `"ROLE_" + name()`. The source builds a list from
      the permission set; its elements are pairwise distinct, so the model keeps them as a set. */
  function Authorities(r: Role): (auths: set<string>)
    ensures "ROLE_" + RoleName(r) in auths
    ensures forall p :: PermissionString(p) in auths <==> p in PermissionsOf(r)
    ensures |auths| == |PermissionsOf(r)| + 1
  {
    var granted := AuthorityStrings(PermissionsOf(r));
    AuthorityStringsCount(PermissionsOf(r));
    assert forall p :: PermissionString(p) in granted ==> p in PermissionsOf(r) by {
      forall p | PermissionString(p) in granted
        ensures p in PermissionsOf(r)
      {
        var q :| q in PermissionsOf(r) && PermissionString(q) == PermissionString(p);
        PermissionStringInjective(p, q);
      }
    }
    forall p ensures PermissionString(p) != "ROLE_" + RoleName(r) {
      RoleAuthorityIsNotAPermission(r, p);
    }
    granted + {"ROLE_" + RoleName(r)}
  }
}

=== FILE: user_service.dfy ===
/** Accounts and sessions: registration, activation, password reset, login, token refresh, logout,
    and the one-row-per-user session upsert they share.

    Password hashing and token handling are foreign: the hash, the password matcher, the subject a
    refresh token names, the token validity test and every freshly generated token are parameters. */
module UserService {
  import opened Wrappers
  import opened Tables
  import opened Roles
  import opened Entities

  /** The registration form. `isActive` may be left out. */
  datatype UserRequest = UserRequest(
    firstName: string,
    lastName: string,
    email: string,
    mobileNumber: string,
    password: string,
    role: Role,
    isActive: Option<bool>)

  /** What a successful login or refresh hands back, together with the store it leaves behind. */
  datatype Login = Login(store: Store, userRole: string, accessToken: string, refreshToken: string)

  /** The account a registration form creates: the password encoded, inactive unless stated. */
  function NewUser(req: UserRequest, hash: string -> string): User {
    User(req.firstName, req.lastName, req.email, req.mobileNumber, hash(req.password), req.role,
         req.isActive == Some(true), None)
  }

  /** `addUser`: register an account under a fresh id unless its email is already taken. */
  function AddUser(s: Store, req: UserRequest, hash: string -> string): (r: Result<Store>)
    ensures Wf(s) ==> (r.Err? <==> exists u :: u in s.users && s.users[u].email == req.email)
    ensures r.Err? ==> r.error == Conflict
    ensures r.Ok? && Wf(s) ==>
      && s.nextUser !in s.users
      && r.value.users.Keys == s.users.Keys + {s.nextUser}
      && (forall u :: u in s.users ==> r.value.users[u] == s.users[u])
    ensures r.Ok? ==>
      && s.nextUser in r.value.users
      && r.value.users[s.nextUser].email == req.email
      && r.value.users[s.nextUser].password == hash(req.password)
      && r.value.users[s.nextUser].role == req.role
      && r.value.users[s.nextUser].isActive == (req.isActive == Some(true))
      && r.value.users[s.nextUser].site == None
      && r.value == s.(users := r.value.users, nextUser := s.nextUser + 1)
  {
    if UserByEmail(s, req.email).Some? then Err(Conflict)
    else Ok(s.(users := s.users[s.nextUser := NewUser(req, hash)], nextUser := s.nextUser + 1))
  }

  /** A registration keeps the store well formed and emails unique, and the new account is the one
      the email now finds. */
  lemma AddUserRegisters(s: Store, req: UserRequest, hash: string -> string)
    requires Wf(s) && EmailsUnique(s)
    requires AddUser(s, req, hash).Ok?
    ensures Wf(AddUser(s, req, hash).value) && EmailsUnique(AddUser(s, req, hash).value)
    ensures UserByEmail(AddUser(s, req, hash).value, req.email) == Some(s.nextUser)
  {
    var t := AddUser(s, req, hash).value;
    assert Wf(t);
    assert EmailsUnique(t);
    assert t.users[s.nextUser].email == req.email;
  }

  /** A second registration under the same email is refused and leaves the store as it was. */
  lemma AddUserTwiceConflicts(s: Store, req: UserRequest, req': UserRequest, hash: string -> string)
    requires Wf(s) && EmailsUnique(s)
    requires AddUser(s, req, hash).Ok? && req'.email == req.email
    ensures AddUser(AddUser(s, req, hash).value, req', hash) == Err(Conflict)
  {
    AddUserRegisters(s, req, hash);
  }

  /** `activate`: an inactive account becomes active. */
  function Activate(s: Store, userId: Id): (r: Result<Store>)
    ensures r.Err? <==> userId !in s.users || s.users[userId].isActive
    ensures r.Err? ==> r.error == (if userId !in s.users then NotFound else Conflict)
    ensures r.Ok? ==>
      && r.value == s.(users := r.value.users)
      && r.value.users.Keys == s.users.Keys
      && r.value.users[userId] == s.users[userId].(isActive := true)
      && (forall u :: u in s.users && u != userId ==> r.value.users[u] == s.users[u])
  {
    if userId !in s.users then Err(NotFound)
    else if s.users[userId].isActive then Err(Conflict)
    else Ok(s.(users := s.users[userId := s.users[userId].(isActive := true)]))
  }

  /** `deactivate`: an active account becomes inactive. */
  function Deactivate(s: Store, userId: Id): (r: Result<Store>)
    ensures r.Err? <==> userId !in s.users || !s.users[userId].isActive
    ensures r.Err? ==> r.error == (if userId !in s.users then NotFound else Conflict)
    ensures r.Ok? ==>
      && r.value == s.(users := r.value.users)
      && r.value.users.Keys == s.users.Keys
      && r.value.users[userId] == s.users[userId].(isActive := false)
      && (forall u :: u in s.users && u != userId ==> r.value.users[u] == s.users[u])
  {
    if userId !in s.users then Err(NotFound)
    else if !s.users[userId].isActive then Err(Conflict)
    else Ok(s.(users := s.users[userId := s.users[userId].(isActive := false)]))
  }

  /** Activation and deactivation undo each other, and neither can be applied twice in a row. */
  lemma ActivateDeactivateInverse(s: Store, userId: Id)
    ensures Activate(s, userId).Ok? ==>
      && Deactivate(Activate(s, userId).value, userId) == Ok(s)
      && Activate(Activate(s, userId).value, userId) == Err(Conflict)
    ensures Deactivate(s, userId).Ok? ==>
      && Activate(Deactivate(s, userId).value, userId) == Ok(s)
      && Deactivate(Deactivate(s, userId).value, userId) == Err(Conflict)
  {
    if Activate(s, userId).Ok? {
      var t := Activate(s, userId).value;
      assert t.users[userId := t.users[userId].(isActive := false)] == s.users;
    }
    if Deactivate(s, userId).Ok? {
      var t := Deactivate(s, userId).value;
      assert t.users[userId := t.users[userId].(isActive := true)] == s.users;
    }
  }

  /** `resetPassword`: the account registered under `email` gets the encoding of `password`. */
  function ResetPassword(s: Store, email: string, password: string, hash: string -> string): (r: Result<Store>)
    ensures Wf(s) ==> (r.Err? <==> forall u :: u in s.users ==> s.users[u].email != email)
    ensures r.Err? ==> r.error == NotFound
    ensures r.Ok? ==>
      exists u :: (u in s.users && s.users[u].email == email &&
                   r.value == s.(users := s.users[u := s.users[u].(password := hash(password))]))
  {
    match UserByEmail(s, email)
    case None => Err(NotFound)
    case Some(u) => Ok(s.(users := s.users[u := s.users[u].(password := hash(password))]))
  }

  /** A reset changes no email, so every email finds the same account afterwards and emails stay unique. */
  lemma ResetPasswordKeepsAccounts(s: Store, email: string, password: string, hash: string -> string, e: string)
    requires ResetPassword(s, email, password, hash).Ok?
    ensures UserByEmail(ResetPassword(s, email, password, hash).value, e) == UserByEmail(s, e)
    ensures EmailsUnique(s) ==> EmailsUnique(ResetPassword(s, email, password, hash).value)
    ensures Wf(s) ==> Wf(ResetPassword(s, email, password, hash).value)
  {
    var t := ResetPassword(s, email, password, hash).value;
    SelectAgree(t.users, HasEmail(e), s.users, HasEmail(e), s.nextUser);
  }

  /** `saveToken`: the user's session row is reused with the new token, or created if there is none;
      either way the row is neither expired nor revoked. */
  function SaveToken(s: Store, user: Id, token: string): (r: Store)
    ensures r == s.(tokens := r.tokens, nextToken := r.nextToken)
    ensures SessionsOf(s, user) != [] ==> r.tokens.Keys == s.tokens.Keys && r.nextToken == s.nextToken
    ensures SessionsOf(s, user) == [] ==>
      r.tokens.Keys == s.tokens.Keys + {s.nextToken} && r.nextToken == s.nextToken + 1
    ensures Wf(s) ==>
      forall t :: t in s.tokens && s.tokens[t].user != user ==> t in r.tokens && r.tokens[t] == s.tokens[t]
  {
    var rows := SessionsOf(s, user);
    if |rows| > 0 then
      var row := s.tokens[rows[0]];
      s.(tokens := s.tokens[rows[0] := row.(token := token, expired := false, revoked := false)])
    else
      s.(tokens := s.tokens[s.nextToken := AuthToken(token, false, false, user)], nextToken := s.nextToken + 1)
  }

  /** The session row `SaveToken` leaves for the user. */
  function SessionRow(s: Store, user: Id): Id {
    var rows := SessionsOf(s, user);
    if |rows| > 0 then rows[0] else s.nextToken
  }

  /** After `saveToken` the user has exactly one session row, holding the new token live; the store
      stays well formed and keeps one row per user. */
  lemma SaveTokenSingleRow(s: Store, user: Id, token: string)
    requires Wf(s) && SingleSession(s)
    ensures Wf(SaveToken(s, user, token)) && SingleSession(SaveToken(s, user, token))
    ensures SessionsOf(SaveToken(s, user, token), user) == [SessionRow(s, user)]
    ensures SaveToken(s, user, token).tokens[SessionRow(s, user)] == AuthToken(token, false, false, user)
  {
    var r := SaveToken(s, user, token);
    var n := SessionRow(s, user);
    var rows := SessionsOf(s, user);
    if |rows| > 0 {
      assert n in s.tokens && s.tokens[n].user == user;
      forall x: nat | x < r.nextToken && x in r.tokens && OwnedBy(user)(r.tokens[x])
        ensures x == n
      {
        assert s.tokens[x].user == user;
        SelectMembership(s.tokens, OwnedBy(user), s.nextToken, x);
      }
    } else {
      SelectEmpty(s.tokens, OwnedBy(user), s.nextToken);
    }
    SelectSingleton(r.tokens, OwnedBy(user), r.nextToken, n);
  }

  /** Saving twice is saving the last token: the upsert never leaves a stale row behind. */
  lemma SaveTokenLastWins(s: Store, user: Id, a: string, b: string)
    requires Wf(s)
    ensures SaveToken(SaveToken(s, user, a), user, b) == SaveToken(s, user, b)
  {
    if |SessionsOf(s, user)| > 0 {
      SaveTokenLastWinsReused(s, user, a, b);
    } else {
      SaveTokenLastWinsCreated(s, user, a, b);
    }
  }

  lemma SaveTokenLastWinsReused(s: Store, user: Id, a: string, b: string)
    requires |SessionsOf(s, user)| > 0
    ensures SaveToken(SaveToken(s, user, a), user, b) == SaveToken(s, user, b)
  {
    var row := SessionsOf(s, user)[0];
    var s1 := SaveToken(s, user, a);
    assert s1.tokens == s.tokens[row := s.tokens[row].(token := a, expired := false, revoked := false)];
    assert s1.nextToken == s.nextToken;
    SelectAgree(s1.tokens, OwnedBy(user), s.tokens, OwnedBy(user), s.nextToken);
    assert SessionsOf(s1, user) == SessionsOf(s, user);
  }

  lemma SaveTokenLastWinsCreated(s: Store, user: Id, a: string, b: string)
    requires Wf(s)
    requires |SessionsOf(s, user)| == 0
    ensures SaveToken(SaveToken(s, user, a), user, b) == SaveToken(s, user, b)
  {
    var n := s.nextToken;
    var s1 := SaveToken(s, user, a);
    assert s1.tokens == s.tokens[n := AuthToken(a, false, false, user)];
    SelectExtend(s.tokens, OwnedBy(user), n, AuthToken(a, false, false, user));
    assert SessionsOf(s1, user) == [n];
    assert s1.tokens[n := AuthToken(b, false, false, user)] == s.tokens[n := AuthToken(b, false, false, user)];
  }

  /** `authenticate`: look the account up by email, refuse it while inactive (before looking at the
      password), then check the password and open a session with the new access token. */
  function Authenticate(s: Store, email: string, password: string, matches: (string, string) -> bool,
                        accessToken: string, refreshToken: string): (r: Result<Login>)
    ensures r.Err? <==>
      || UserByEmail(s, email).None?
      || !s.users[UserByEmail(s, email).value].isActive
      || !matches(password, s.users[UserByEmail(s, email).value].password)
    ensures r.Err? ==> (r.error ==
      (if UserByEmail(s, email).None? then NotFound
       else if !s.users[UserByEmail(s, email).value].isActive then Forbidden
       else NotFound))
    ensures r.Ok? ==>
      var u := UserByEmail(s, email).value;
      && s.users[u].email == email && s.users[u].isActive
      && r.value == Login(SaveToken(s, u, accessToken), RoleName(s.users[u].role), accessToken, refreshToken)
  {
    match UserByEmail(s, email)
    case None => Err(NotFound)
    case Some(u) =>
      if !s.users[u].isActive then Err(Forbidden)
      else if !matches(password, s.users[u].password) then Err(NotFound)
      else Ok(Login(SaveToken(s, u, accessToken), RoleName(s.users[u].role), accessToken, refreshToken))
  }

  /** `refreshToken`: a refresh token naming an active account that it is valid for yields a new
      access token, stored as the account's session, and the same refresh token back. */
  function RefreshToken(s: Store, refreshToken: string, subject: string, isTokenValid: (string, User) -> bool,
                        accessToken: string): (r: Result<Login>)
    ensures r.Err? <==>
      || subject == []
      || UserByEmail(s, subject).None?
      || !s.users[UserByEmail(s, subject).value].isActive
      || !isTokenValid(refreshToken, s.users[UserByEmail(s, subject).value])
    ensures r.Err? ==> (r.error ==
      (if subject == [] then BadRequest
       else if UserByEmail(s, subject).None? then NotFound
       else if !s.users[UserByEmail(s, subject).value].isActive then BadRequest
       else InternalServer))
    ensures r.Ok? ==>
      var u := UserByEmail(s, subject).value;
      && s.users[u].email == subject && s.users[u].isActive
      && r.value == Login(SaveToken(s, u, accessToken), RoleName(s.users[u].role), accessToken, refreshToken)
  {
    if subject == [] then Err(BadRequest)
    else
      var found := UserByEmail(s, subject);
      if found.Some? && !s.users[found.value].isActive then Err(BadRequest)
      else if found.None? then Err(NotFound)
      else if !isTokenValid(refreshToken, s.users[found.value]) then Err(InternalServer)
      else
        var u := found.value;
        Ok(Login(SaveToken(s, u, accessToken), RoleName(s.users[u].role), accessToken, refreshToken))
  }

  /** A successful login or refresh leaves the account with exactly one live session row, holding the
      new access token, and the store still well formed with one row per user. */
  lemma LoginOpensSession(s: Store, u: Id, l: Login)
    requires Wf(s) && SingleSession(s)
    requires u in s.users
    requires l == Login(SaveToken(s, u, l.accessToken), RoleName(s.users[u].role), l.accessToken, l.refreshToken)
    ensures Wf(l.store) && SingleSession(l.store)
    ensures |SessionsOf(l.store, u)| == 1
    ensures l.store.tokens[SessionsOf(l.store, u)[0]] == AuthToken(l.accessToken, false, false, u)
    ensures l.store.users == s.users
  {
    SaveTokenSingleRow(s, u, l.accessToken);
  }

  /** After a successful login the access token it returned can be used to log out. */
  lemma LoginThenLogout(s: Store, email: string, password: string, matches: (string, string) -> bool,
                        accessToken: string, refreshToken: string)
    requires Wf(s) && SingleSession(s)
    requires Authenticate(s, email, password, matches, accessToken, refreshToken).Ok?
    requires accessToken != []
    ensures Logout(Authenticate(s, email, password, matches, accessToken, refreshToken).value.store, accessToken).Ok?
  {
    var l := Authenticate(s, email, password, matches, accessToken, refreshToken).value;
    var u := UserByEmail(s, email).value;
    LoginOpensSession(s, u, l);
    var row := SessionsOf(l.store, u)[0];
    assert l.store.tokens[row].token == accessToken;
  }

  /** `logout`: the session row holding the caller's token is marked expired and revoked. An empty
      token is refused before any lookup. */
  function Logout(s: Store, token: string): (r: Result<Store>)
    ensures Wf(s) ==> (r.Err? <==> token == [] || forall t :: t in s.tokens ==> s.tokens[t].token != token)
    ensures r.Err? ==> r.error == (if token == [] then NotFound else BadRequest)
    ensures r.Ok? ==>
      exists t :: (t in s.tokens && s.tokens[t].token == token &&
                   r.value == s.(tokens := s.tokens[t := s.tokens[t].(expired := true, revoked := true)]))
  {
    if token == [] then Err(NotFound)
    else match TokenRow(s, token)
      case None => Err(BadRequest)
      case Some(t) => Ok(s.(tokens := s.tokens[t := s.tokens[t].(expired := true, revoked := true)]))
  }

  /** Logging out keeps the store well formed with one row per user, and logging out twice with the
      same token is the same as logging out once. */
  lemma LogoutIdempotent(s: Store, token: string)
    requires Logout(s, token).Ok?
    ensures Logout(Logout(s, token).value, token) == Logout(s, token)
    ensures Wf(s) ==> Wf(Logout(s, token).value)
    ensures SingleSession(s) ==> SingleSession(Logout(s, token).value)
  {
    var t := Logout(s, token).value;
    SelectAgree(t.tokens, HoldsToken(token), s.tokens, HoldsToken(token), s.nextToken);
    var row := TokenRow(s, token).value;
    assert t.tokens[row := t.tokens[row].(expired := true, revoked := true)] == t.tokens;
  }
}

=== FILE: wrappers.dfy ===
/** Failure-compatible result types shared by every service of the model. */
module Wrappers {

  /** A value that may be absent: the model's counterpart of a nullable reference. */
  datatype Option<+T> = None | Some(value: T)

  /** The error kinds the services raise, one per exception class they throw. */
  datatype ErrorKind = NotFound | BadRequest | Conflict | Forbidden | InternalServer

  /** Either the value an operation produces or the error kind it throws. */
  datatype Result<+T> = Ok(value: T) | Err(error: ErrorKind) {

    predicate IsFailure() {
      Err?
    }

    function PropagateFailure<U>(): Result<U>
      requires Err?
    {
      Err(error)
    }

    function Extract(): T
      requires Ok?
    {
      value
    }
  }
}
